=== FILE: README.md ===
# standard_product selection and sling bookkeeping, modelled in Dafny

This project models the visible logic of two scripts of the standard-product
pipeline. `orbit_acquisition_selector.py` picks, for each area of interest
(AOI), the acquisitions of every track and date that pass the water-mask
coverage check. `sling_standard_product.py` prepares the localization jobs for
a master/slave candidate pair and writes the dataset's location polygon.

The model is functional. A Python dictionary whose iteration order matters
(the grouping, the selection result, `acq_info` in the sling step) is a
sequence of entries with distinct keys in iteration order. A dictionary that
is only looked up (the selector's `acq_info` index, the jobs index) or whose
order the model does not track (`orbit_aoi_data`) is a Dafny `map`. Exceptions are
`Result`/`Option` values.
The decision log is a returned sequence of 15-field rows. Two pieces are
parameters whose internals are not modelled:

- `gtUtil.water_mask_check` is the function parameter `waterMask`/`check`;
- the grouping `util.group_acqs_by_track_date_from_metadata` is an input value (`Grouped`).

Modules:

- `Common`: `Option`, `Result`, reversal, distinctness, `list(set(...))`, map-until-failure.
- `Text`: the Python string operations the scripts rely on. These are
  `isspace`, `strip()`, `split(',')`, `split()`, `' '.join`, `int()` and
  `str()` on integers, and ASCII `lower()`. The module also proves their
  round trips.
- `Geometry`: `get_area` and the winding fix of `create_dataset_json`.
- `Selector`: `get_covered_acquisitions_by_track_date` and the per-AOI
  bookkeeping of `query_aoi_acquisitions`.
- `Context`: the context parsing of `resolve_aoi_acqs` (`track_numbers`,
  `aoi_name`), `get_temporal_baseline`, `get_dem_type`, and the search loop of
  `get_orbit_file`.
- `Sling`: `acq_info` as `resolve_source` builds it, the id strings of
  `get_id_hash`, `check_all_job_completed`, and `get_job_status`.

Two behaviours of the code worth knowing:

- The result-summary CSV header (orbit_acquisition_selector.py:615) spells two
  columns `Track_PEORB_Land` and `ACQ_AOI_Ingtersection`, unlike the result
  fields `Track_POEORB_Land` and `acq_union_aoi_intersection` written under
  them at line 467. `ResultHeader` keeps the header's spelling.
- The winding fix does not guarantee a clockwise ring. A ring of area exactly
  zero is still not clockwise after its one reversal (`DatasetLocation`).

## Model

| member | source | states |
|---|---|---|
| `Geometry.GetArea` | sling_standard_product.py:50-59 | the loop computes half the cyclic shoelace sum over the corners, with each corner paired with its successor modulo n; an empty ring gives 0 |
| `Geometry.ReverseNegatesArea` | sling_standard_product.py:137-139 | reversing a ring negates its signed area, so one reversal turns a negative area positive |
| `Common.Reverse` | sling_standard_product.py:137 | `ring[::-1]` has the same length, and element i is element n-1-i of the input, so a closed ring stays closed |
| `Geometry.DatasetLocation` | sling_standard_product.py:132-148 | no outer ring: no location. Positive area: coordinates kept as they are ("already clockwise"). Otherwise: only the reversed outer ring is kept and inner rings are dropped. The result's area is never negative, and it is positive exactly when the original area was not zero ("STILL NOT clockwise" otherwise). Length and closure of the ring are preserved |
| `Geometry.SampleUnionRingIsClockwise` | initiate_standard_product_enumurator.py:15 | the hard-coded sample union ring is closed with positive area, so the winding fix leaves it unchanged |
| `Selector.MissionOf` | orbit_acquisition_selector.py:446-448 | the mission is "S1B" exactly for platform "Sentinel-1B", and "S1A" for every other platform |
| `Selector.CsvRow` | orbit_acquisition_selector.py:465-467 | each report row has as many fields as the 15-column header, with date, track and water-mask verdict in the header's positions |
| `Selector.LookupAll` | orbit_acquisition_selector.py:471-478 | a selected cluster's acquisitions are `acq_info[id]` for each id, in the cluster's order, and the lookup succeeds exactly when every id is indexed; otherwise the `KeyError` names the first id without an entry |
| `Selector.GetCoveredAcquisitionsByTrackDate` | orbit_acquisition_selector.py:428-486 | the written report is always a prefix of one row per cluster of every allowed track, and is all of it on success. The run succeeds exactly when every id of every selected cluster of an allowed track is in `acq_info`. The selection's tracks are exactly the allowed tracks in order. On failure the `KeyError` names the first unindexed id of the first selected cluster, in evaluation order, whose lookup fails; the report is then every row of the earlier allowed tracks plus that track's rows up to and including that cluster's |
| `Selector.DateLogIsClusterRows` | orbit_acquisition_selector.py:462-478 | the date loop writes one row per date, whatever the verdict, in order; a failed lookup stops it at the first selected date whose lookup raises (every earlier selected date is fully indexed), on that date's first unindexed id, and the log is then exactly the rows of the dates up to and including that one |
| `Selector.DatesSucceedIffIndexed` | orbit_acquisition_selector.py:462-478 | the date loop completes without `KeyError` exactly when every id of every selected date is in `acq_info` |
| `Selector.TracksSucceedIffIndexed` | orbit_acquisition_selector.py:455-480 | the track loop completes without `KeyError` exactly when, for every allowed track, every id of every selected date is in `acq_info` |
| `Selector.LogIsOneRowPerEvaluatedCluster` | orbit_acquisition_selector.py:455-478 | across tracks, a completed run writes one row per evaluated (track, date) in evaluation order, as many rows as the allowed tracks have dates; a failed run writes exactly those rows up to and including the row of the first selected cluster whose lookup raises |
| `Selector.TrackLogStopsAtFailure` | orbit_acquisition_selector.py:455-478 | a failed track loop stopped in an allowed track after every earlier allowed track looked up cleanly and wrote all its rows, at that track's first failing selected date |
| `Selector.SkippedTrackWritesNoRow` | orbit_acquisition_selector.py:457-460 | tracks outside a non-empty allow-list write no report row and evaluate no cluster |
| `Selector.SelectedTracksAreAllowedTracks` | orbit_acquisition_selector.py:455-480 | every processed track gets a key in the result, even with no date selected, and no skipped track does |
| `Selector.AllowedTracksEmpty` | orbit_acquisition_selector.py:457-460 | no track is processed exactly when every track is outside the allow-list |
| `Selector.NothingSelectedIffAllSkipped` | orbit_acquisition_selector.py:619-621 | the "Nothing selected" exit is taken exactly when every track was skipped or there were none; it is never taken with an empty allow-list and at least one track |
| `Selector.MissingIdIsNotIndexed` | orbit_acquisition_selector.py:455-473 | the id on which the track loop raises `KeyError` is absent from `acq_info` and listed in a selected cluster of an allowed track |
| `Selector.MissingIdIsNotIndexedInDates` | orbit_acquisition_selector.py:462-473 | the id on which one track's date loop raises `KeyError` is absent from `acq_info` and listed in a selected cluster |
| `Selector.KeptDatesAreSelectedDates` | orbit_acquisition_selector.py:469-479 | a track's inner map holds exactly the dates whose verdict was "selected", in evaluation order |
| `Selector.DateSelectionContents` | orbit_acquisition_selector.py:469-479 | for a selected (track, date) the inner map holds exactly the cluster's looked-up acquisitions in cluster order; rejected dates and unknown dates have no entry |
| `Selector.TrackSelectionContents` | orbit_acquisition_selector.py:455-480 | an allowed track maps to the result of its own date loop; a track outside a non-empty allow-list has no key |
| `Selector.TrackSelectionAbsent` | orbit_acquisition_selector.py:457-460 | a skipped track, or one not in the grouping, has no key in the result |
| `Selector.CollectAoiData` | orbit_acquisition_selector.py:617-633 | `orbit_aoi_data` has a key exactly for the AOI ids with at least one AOI whose selection has a track |
| `Selector.CollectAoiDataLastWins` | orbit_acquisition_selector.py:625-633 | an AOI id's entry comes from the last AOI with that id and a non-empty selection; its priority defaults to 0 when the AOI has none |
| `Context.ParsePrefix` | orbit_acquisition_selector.py:719-722 | the track list is the longest run of leading tokens that `int()` accepts, each token's value in order; the token after the run is one `int()` rejects |
| `Context.SelectedTrackList` | orbit_acquisition_selector.py:714-724 | absent, `null`, non-string or blank `track_numbers` give []; otherwise the list is the parsed prefix of the comma-split stripped value |
| `Context.TrackListRoundTrip` | orbit_acquisition_selector.py:714-724 | any list of integers written as `",".join(map(str, ns))` is read back as exactly that list |
| `Context.AoiTokens` | orbit_acquisition_selector.py:727-736 | absent, `null`, non-string or blank `aoi_name` gives []; otherwise there is one token per comma-separated part of the stripped value, each token being its part without the surrounding white space; every token is stripped and holds no comma |
| `Context.SelectedAoiList` | orbit_acquisition_selector.py:727-738 | the AOI list has no duplicates and holds exactly the stripped comma-separated tokens, in an unspecified order |
| `Common.ListOfSet` | orbit_acquisition_selector.py:738 | `list(set(xs))` has no duplicates and exactly the elements of `xs` |
| `Context.AoiNamesRoundTrip` | orbit_acquisition_selector.py:727-738 | comma-joined names that are non-empty, trimmed and comma-free are read back as exactly those names |
| `Context.TemporalBaseline` | orbit_acquisition_selector.py:692-696 | an absent `temporalBaseline` gives 24; a JSON integer is taken as is; a string is read as `int()` reads it, so a string with no digit (`""`, `"abc"`) raises `ValueError` (`None`); `null` or a list/object raises (`None`) |
| `Context.TemporalBaselineRejectsText` | orbit_acquisition_selector.py:695 | a string that is not a decimal integer literal with `int()`-skippable padding (`"1.5"`, `"abc"`, `""`) makes `int()` raise (`None`) |
| `Context.TemporalBaselineFromText` | orbit_acquisition_selector.py:692-696 | a baseline given as a decimal string, with any white space `int()` skips around it, is read as that number |
| `Context.DemType` | orbit_acquisition_selector.py:380-385 | a missing `city` key, or a missing `country_name` in a first city, raises `KeyError` naming that key, and nothing else does; otherwise the DEM type is "Ned1" or "SRTM+v3", and "Ned1" only with a first city whose country name is present |
| `Context.DemTypeIsNed1Iff` | orbit_acquisition_selector.py:380-385 | "Ned1" exactly when the city list is present and non-empty and the first city's country name spells "united states" in any letter case |
| `Context.GetOrbitFile` | orbit_acquisition_selector.py:192-200 | not found exactly when no hit has the requested platform; otherwise the result is the first matching hit's id and first localize url, or the `IndexError` when that hit lists no url |
| `Text.Strip` | orbit_acquisition_selector.py:718 | `strip()` returns a substring with white space only around it and none at its own ends |
| `Text.StripOfPadded` | orbit_acquisition_selector.py:718 | stripping white-space padding around a trimmed string gives exactly that string |
| `Text.StripIdempotent` | orbit_acquisition_selector.py:735 | stripping an already stripped token changes nothing |
| `Text.Split` | orbit_acquisition_selector.py:720 | `split(',')` gives at least one part, none containing a comma, and the parts joined by commas are the input |
| `Text.SplitJoin` | orbit_acquisition_selector.py:720 | splitting a comma-join of comma-free parts gives those parts back |
| `Text.SplitWhitespace` | sling_standard_product.py:325-326 | `split()` returns only non-empty words without white space, and together, in order, they hold every non-space character of the input |
| `Text.SplitWhitespaceSpaces` | sling_standard_product.py:325-326 | `split()` of a string of white space only is [] |
| `Text.SplitWhitespaceFirst` | sling_standard_product.py:325-326 | after any leading white space, a word ending at the end of the string or at white space is the first result of `split()`, and the rest are `split()` of what follows; with `SplitWhitespaceSpaces` this fixes the result on every input |
| `Text.SplitWhitespaceJoin` | sling_standard_product.py:325-326 | `split()` of a single-space join of words gives the words back |
| `Text.ParseInt` | orbit_acquisition_selector.py:722 | `int()` returns n exactly when the string is an optional sign followed by ASCII digits (with single underscores between digits) whose signed value is n, padded only with white space `int()` skips (`str.isspace()` white space except U+001C to U+001F); it raises (`None`) otherwise, in particular on a string with no digit |
| `Text.IntKeepsSeparators` | orbit_acquisition_selector.py:722 | each of U+001C to U+001F is `str.isspace()` white space, which `strip()` removes, yet `int()` raises on every string that starts with one |
| `Text.ParseFormat` | orbit_acquisition_selector.py:722 | `int(str(n)) == n` for every integer |
| `Text.ParsePadded` | orbit_acquisition_selector.py:722 | `int()` accepts the white space it skips around the number, as `int(" 12 ")` does |
| `Text.Lower` | orbit_acquisition_selector.py:383 | `lower()` keeps the length and lower-cases each character on its own |
| `Sling.AcqIds` | sling_standard_product.py:325-326 | stripping the words of `split()` changes none of them |
| `Sling.Put` | sling_standard_product.py:365 | assigning to an existing key keeps its place and changes only that key's type; a new key goes last |
| `Sling.PutAll` | sling_standard_product.py:363-370 | after one insertion loop, the keys are the old keys followed by the newly seen ids in first-seen order, and every inserted id has the loop's type |
| `Sling.BuildAcqInfo` | sling_standard_product.py:363-370 | `acq_info` has each master and slave id once, masters first in order of first appearance; no key is empty or contains white space; an id listed on both sides is typed "slave" |
| `Sling.MastersThenSlaves` | sling_standard_product.py:363-370 | the master loop followed by the slave loop yields distinct word keys, the slave type winning on ids listed on both sides |
| `Sling.IdsStr` | sling_standard_product.py:487-500 | the id string is "" when no key has that type |
| `Sling.IdsStrIsJoin` | sling_standard_product.py:487-500 | with no empty key, the id string is the single-space join of exactly the keys of that type, in iteration order |
| `Sling.IdsStrSplits` | sling_standard_product.py:487-500 | with word keys, `split()` of the id string gives back exactly the keys of that type, and the string has no leading or trailing space |
| `Sling.OfTypeMembers` | sling_standard_product.py:487-500 | a key appears in the list of type t exactly when its entry has type t; other types are ignored |
| `Sling.AcqInfoIdStrings` | sling_standard_product.py:487-500 | on `acq_info` as built from the two lists, `master_ids_str` names exactly the master ids that are not slave ids, and `slave_ids_str` exactly the slave ids |
| `Sling.HashInputOf` | sling_standard_product.py:507-512 | the hashed list carries the priority as given (a JSON integer or string), the two space-joined id strings and the DEM type |
| `Sling.IdHash` | sling_standard_product.py:481-514 | the id hash is the digest of the priority as given, the space-joined master and slave keys and the DEM type |
| `Sling.IdHashDependsOnTypedIds` | sling_standard_product.py:481-514 | two `acq_info` maps with the same master and slave keys in the same order hash alike |
| `Sling.CheckAllJobCompleted` | sling_standard_product.py:518-527 | true exactly when every entry is localized or has status "job-completed"; an empty map gives true |
| `Sling.GetJobStatus` | sling_standard_product.py:161-209 | a job that is not deduped yields its own status and id. A deduped job yields the status and id of its `dedup_job`. A job missing from the index raises (`RuntimeError`) and a deduped job without `dedup_job` raises `KeyError` (on the key `dedup_job`); both errors carry the queried job's id. A `dedup_job` with no hit raises `ValueError`, and that error carries the `dedup_job` id |
| `Sling.GetJobStatusSettles` | sling_standard_product.py:181-209 | resolving again from a returned non-deduped answer gives the same answer. A "job-deduped" answer arises only from a deduped job pointing at another deduped job, since only one hop is followed |

## Left out

- Elasticsearch and HTTP access (`query_es`, `query_aois`, `util.query_orbit_file`, `check_ES_status`, `check_slc_status`, `resolve_s1_slc`): network I/O. Query results are inputs. `check_ES_status` either returns true or, once its polling times out, raises `RuntimeError`; `GetJobStatus` models that outcome as `NotIndexed` for a job absent from the index, without the polling and its timing.
- Job submission and publishing (`sling`, `submit_sling_job`, `submit_ifg_job`, `publish_localized_info`, `publish_data`): foreign calls and file writes.
- `gtUtil.water_mask_check` and `util.group_acqs_by_track_date_from_metadata`: their source is not part of this model. They are a parameter and an input.
- `isTrackSelected` and `get_covered_acquisitions`: they cannot run as written (a list used as a divisor; an undefined `threshold_pixel`).
- MD5 and JSON encoding in `get_id_hash`: the digest is the parameter `digest` over the structured input.
- Geometry uses exact reals, so floating-point rounding in the shoelace sum is not modelled.
- Datetime parsing and formatting, CSV and JSON file writes, logging, `sys.exit`, `os.path.basename` of the orbit file, and the unused `message` of `get_job_status`.
- The AOI location and the other pass-through fields of the AOI and acquisition records.
- `TrackAllowed`: the allow-list test uses `int(track)` on the grouping's track keys; the model takes track keys as integers already.
- `ParseInt`: Unicode decimal digits other than ASCII `0`-`9`, which Python's `int()` also accepts, are rejected.
- `Lower`: only ASCII letters are lower-cased. For the comparison with "united states" this is exact, because no other character lower-cases to a single ASCII letter of that word.
- `TemporalBaseline`: a JSON float or boolean value is not modelled (`int(2.5)` truncates, `int(True)` is 1).
- `CollectAoiData`: `orbit_aoi_data` is a map, so its insertion order (the order of the AOIs' first qualifying appearance) is not modelled. The order shows only where the whole dictionary is passed on into the job parameters (orbit_acquisition_selector.py:793).
- `CollectAoiData`: an AOI whose `metadata.priority` is present but `null` is not modelled; such an AOI would keep priority `None`.
- `GetOrbitFile`: missing keys in a hit (`KeyError`) are not modelled; hits are well-formed records.
- `BuildAcqInfo`: the key order assumes insertion-ordered dictionaries. sling_standard_product.py names plain `python`; under Python 2 the iteration order is the hash order. The key set and the types still hold, and the `IdsStr` lemmas hold for any iteration order.
- `SplitWhitespace`: white space is Python 3's set. sling_standard_product.py runs under Python 2, whose `unicode.split()` also treats U+180E as white space.
- `DemType`: a `city` or `country_name` value of another JSON type (a string, a number) is not modelled; the model takes a list of city records and a string.
- `HashInputOf`: a `job_priority` of another JSON type (a float, `null`) is not modelled; the JSON encoding itself is left to the `digest` parameter.

=== FILE: common.dfy ===
/** Small failure-carrying datatypes and sequence helpers shared by the model. */
module Common {

  /** An acquisition id, as the selector's index and the sling step both key it. */
  type AcqId = string

  /** A value that may be absent: Python's `None` or a missing key. */
  datatype Option<+T> = None | Some(value: T) {
    function GetOr(default: T): T {
      match this
      case Some(v) => v
      case None => default
    }
  }

  /** Either a computed value or the exception the source would raise. */
  datatype Result<+R, +E> = Success(value: R) | Failure(error: E)

  /** Python's `s[::-1]`. */
  function Reverse<T>(s: seq<T>): (r: seq<T>)
    ensures |r| == |s|
    ensures forall i | 0 <= i < |s| :: r[i] == s[|s| - 1 - i]
  {
    if |s| == 0 then [] else Reverse(s[1..]) + [s[0]]
  }

  /** `f` applied to the elements of `s` in order, up to the first one it fails on. */
  function MapWhile<A, B>(s: seq<A>, f: A -> Option<B>): (r: seq<B>)
    ensures |r| <= |s|
    ensures forall i | 0 <= i < |r| :: f(s[i]) == Some(r[i])
    ensures |r| < |s| ==> f(s[|r|]) == None
  {
    if |s| == 0 then []
    else match f(s[0])
      case None => []
      case Some(b) => [b] + MapWhile(s[1..], f)
  }

  /** No element occurs twice: the keys of a Python dict or set. */
  predicate Distinct<T(==)>(s: seq<T>) {
    forall i, j | 0 <= i < j < |s| :: s[i] != s[j]
  }

  /** Python's `list(set(s))`: every element once. Python does not fix the
      order, and neither does this contract. */
  method ListOfSet<T(==)>(s: seq<T>) returns (r: seq<T>)
    ensures Distinct(r)
    ensures forall x :: x in r <==> x in s
  {
    r := [];
    for i := 0 to |s|
      invariant Distinct(r)
      invariant forall x :: x in r <==> x in s[..i]
    {
      assert s[..i + 1] == s[..i] + [s[i]];
      if s[i] !in r {
        r := r + [s[i]];
      }
    }
    assert s[..|s|] == s;
  }
}

=== FILE: context.dfy ===
/**
  The pure helpers of orbit_acquisition_selector.py around the selection: the
  parsing of `track_numbers` and `aoi_name` in `resolve_aoi_acqs`,
  `get_temporal_baseline`, `get_dem_type`, and the search part of
  `get_orbit_file`.
*/
module Context {
  import opened Common
  import opened Text

  /** One value read from the job's `_context.json`: the key absent, JSON
      `null`, a string, an integer, or any other JSON value (list, object). */
  datatype CtxField = Absent | Null | Str(text: string) | Integer(n: int) | Composite

  // ---------------------------------------------------------------------------
  // track_numbers

  /** `int(tn)` for the tokens in order; the first token that raises ends the
      loop, and the bare `except` keeps what was appended before it. */
  function ParsePrefix(tokens: seq<string>): (ns: seq<int>)
    ensures |ns| <= |tokens|
    ensures forall i | 0 <= i < |ns| :: ParseInt(tokens[i]) == Some(ns[i])
    ensures |ns| < |tokens| ==> ParseInt(tokens[|ns|]) == None
  {
    MapWhile(tokens, ParseInt)
  }

  /** `selected_track_list`: the stripped value split on commas and read as
      integers. Absent, `null`, blank, or not a string (`.strip()` raises and
      the `except` swallows it) all give the empty list. */
  function SelectedTrackList(f: CtxField): (tracks: seq<int>)
    ensures !f.Str? ==> tracks == []
    ensures f.Str? && Strip(f.text) == "" ==> tracks == []
    ensures f.Str? && Strip(f.text) != "" ==>
      var tokens := Split(Strip(f.text), ',');
      && |tracks| <= |tokens|
      && (forall i | 0 <= i < |tracks| :: ParseInt(tokens[i]) == Some(tracks[i]))
      && (|tracks| < |tokens| ==> ParseInt(tokens[|tracks|]) == None)
  {
    match f
    case Str(s) =>
      var t := Strip(s);
      if |t| == 0 then [] else ParsePrefix(Split(t, ','))
    case _ => []
  }

  function FormatAll(ns: seq<int>): (ss: seq<string>)
    ensures |ss| == |ns|
    ensures forall i | 0 <= i < |ns| :: ss[i] == FormatInt(ns[i])
  {
    if |ns| == 0 then [] else [FormatInt(ns[0])] + FormatAll(ns[1..])
  }

  lemma ParsePrefixAll(ns: seq<int>)
    ensures ParsePrefix(FormatAll(ns)) == ns
  {
    var tokens := FormatAll(ns);
    forall i | 0 <= i < |ns| ensures ParseInt(tokens[i]) == Some(ns[i]) {
      ParseFormat(ns[i]);
    }
    var r := ParsePrefix(tokens);
    assert |r| == |ns|;
  }

  lemma FormatIntShape(n: int)
    ensures |FormatInt(n)| > 0 && Trimmed(FormatInt(n)) && ',' !in FormatInt(n)
  {
    var d := NatDecimal(if n < 0 then -n else n);
    assert forall k | 0 <= k < |d| :: d[k] != ',';
    if n < 0 {
      assert FormatInt(n) == "-" + d;
    }
    StripFormat(n);
  }

  /** The value `",".join(str(n) for n in ns)` parses back to exactly `ns`. */
  lemma TrackListRoundTrip(ns: seq<int>)
    ensures SelectedTrackList(Str(Join(FormatAll(ns), ","))) == ns
  {
    var tokens := FormatAll(ns);
    if |ns| == 0 {
      StripEmpty();
    } else {
      forall i | 0 <= i < |tokens| ensures |tokens[i]| > 0 && Trimmed(tokens[i]) && ',' !in tokens[i] {
        FormatIntShape(ns[i]);
      }
      JoinStripped(tokens, ",");
      SplitJoin(tokens, ',');
      ParsePrefixAll(ns);
    }
  }

  // ---------------------------------------------------------------------------
  // aoi_name

  /** The list `selected_aoi_list` builds before `set()`: the stripped value
      split on commas, each token stripped. Empty for a value that is absent,
      `null`, blank or not a string. */
  function AoiTokens(f: CtxField): (tokens: seq<string>)
    ensures !f.Str? || Strip(f.text) == "" ==> tokens == []
    ensures f.Str? && Strip(f.text) != "" ==>
      var parts := Split(Strip(f.text), ',');
      && |tokens| == |parts|
      && forall i | 0 <= i < |parts| :: PaddedBy(parts[i], tokens[i])
    ensures forall i | 0 <= i < |tokens| :: Trimmed(tokens[i]) && ',' !in tokens[i]
  {
    match f
    case Str(s) =>
      var t := Strip(s);
      if |t| == 0 then [] else StripAll(Split(t, ','))
    case _ => []
  }

  /** `list(set(selected_aoi_list))`. Python leaves the order unspecified, so the
      contract promises only what any order shares: no duplicates, and exactly
      the stripped tokens. */
  method SelectedAoiList(f: CtxField) returns (aois: seq<string>)
    ensures Distinct(aois)
    ensures forall a :: a in aois <==> a in AoiTokens(f)
    ensures forall i | 0 <= i < |aois| :: Trimmed(aois[i]) && ',' !in aois[i]
  {
    var tokens := AoiTokens(f);
    aois := ListOfSet(tokens);
    TokensKeepShape(tokens, aois);
  }

  lemma TokensKeepShape(tokens: seq<string>, names: seq<string>)
    requires forall i | 0 <= i < |tokens| :: Trimmed(tokens[i]) && ',' !in tokens[i]
    requires forall a | a in names :: a in tokens
    ensures forall i | 0 <= i < |names| :: Trimmed(names[i]) && ',' !in names[i]
  {
    forall i | 0 <= i < |names| ensures Trimmed(names[i]) && ',' !in names[i] {
      assert names[i] in tokens;
      var j :| 0 <= j < |tokens| && tokens[j] == names[i];
    }
  }

  /** Names without commas or surrounding white space, joined with commas, are
      read back as exactly those names. */
  lemma AoiNamesRoundTrip(names: seq<string>)
    requires forall i | 0 <= i < |names| :: |names[i]| > 0 && Trimmed(names[i]) && ',' !in names[i]
    ensures AoiTokens(Str(Join(names, ","))) == names
  {
    if |names| == 0 {
      StripEmpty();
    } else {
      var s := Join(names, ",");
      assert Strip(s) == s && |s| > 0 by {
        JoinStripped(names, ",");
        JoinFirstLast(names, ",");
      }
      assert Split(s, ',') == names by {
        SplitJoin(names, ',');
      }
      assert StripAll(names) == names by {
        StripAllTrimmed(names);
      }
      AoiTokensOfStripped(s, names);
    }
  }

  lemma AoiTokensOfStripped(s: string, names: seq<string>)
    requires Strip(s) == s && |s| > 0
    requires Split(s, ',') == names && StripAll(names) == names
    ensures AoiTokens(Str(s)) == names
  {
  }

  // ---------------------------------------------------------------------------
  // temporalBaseline

  /** `get_temporal_baseline`: 24 unless the context says otherwise; `None`
      where `int(...)` raises (an unparsable string, `null`, a list or object). */
  function TemporalBaseline(f: CtxField): (days: Option<int>)
    ensures f.Absent? ==> days == Some(24)
    ensures f.Integer? ==> days == Some(f.n)
    ensures f.Null? || f.Composite? ==> days == None
    ensures f.Str? ==> days == ParseInt(f.text)
    ensures f.Str? && (forall i | 0 <= i < |f.text| :: !IsDigit(f.text[i])) ==> days == None
  {
    match f
    case Absent => Some(24)
    case Integer(n) => Some(n)
    case Str(s) => ParseInt(s)
    case _ => None
  }

  /** A baseline that is not a number written in decimal is rejected, as `int()` raises `ValueError`. */
  lemma TemporalBaselineRejectsText(s: string)
    requires forall t, n | IntPadded(s, t) :: !IntLiteral(t, n)
    ensures TemporalBaseline(Str(s)) == None
  {
  }

  /** A baseline written as text, with white space `int()` skips around it, is read as that number. */
  lemma TemporalBaselineFromText(p: string, n: int, q: string)
    requires AllIntSpace(p) && AllIntSpace(q)
    ensures TemporalBaseline(Str(p + FormatInt(n) + q)) == Some(n)
  {
    ParsePadded(p, n, q);
  }

  // ---------------------------------------------------------------------------
  // DEM type

  /** A key of a JSON object as the source indexes it: missing (`KeyError`),
      `null`, or present with a value. */
  datatype Key<T> = Missing | Null | Present(value: T)

  /** One entry of an acquisition's `city` list. */
  datatype City = City(countryName: Key<string>)

  const UnitedStates: string := "united states"

  /** `get_dem_type` on the acquisition's `city` key. A `Failure` names the key
      whose lookup raises `KeyError`: `city` itself, or `country_name` of a
      first city that lacks it. */
  function DemType(city: Key<seq<City>>): (r: Result<string, string>)
    ensures r.Failure? <==> city.Missing? || (city.Present? && |city.value| > 0 && city.value[0].countryName.Missing?)
    ensures r.Failure? ==> r.error == if city.Missing? then "city" else "country_name"
    ensures r.Success? ==> r.value == "Ned1" || r.value == "SRTM+v3"
    ensures r == Success("Ned1") ==> city.Present? && |city.value| > 0 && city.value[0].countryName.Present?
  {
    match city
    case Missing => Failure("city")
    case Null => Success("SRTM+v3")
    case Present(cities) =>
      if |cities| == 0 then Success("SRTM+v3")
      else match cities[0].countryName
        case Missing => Failure("country_name")
        case Null => Success("SRTM+v3")
        case Present(name) => Success(if Lower(name) == UnitedStates then "Ned1" else "SRTM+v3")
  }

  function UpperChar(c: char): char {
    if 'a' <= c <= 'z' then (c as int - 32) as char else c
  }

  /** The country name spells "united states" in any mix of letter cases. */
  predicate IsUnitedStates(name: string) {
    && |name| == |UnitedStates|
    && forall i | 0 <= i < |name| :: name[i] == UnitedStates[i] || name[i] == UpperChar(UnitedStates[i])
  }

  lemma LowerCharIs(c: char, t: char)
    requires 'a' <= t <= 'z' || t == ' '
    ensures LowerChar(c) == t <==> c == t || c == UpperChar(t)
  {
  }

  /** "Ned1" exactly for a first city whose country is "united states" in any
      letter case; every other city value that raises no `KeyError` gives "SRTM+v3". */
  lemma DemTypeIsNed1Iff(city: Key<seq<City>>)
    ensures DemType(city) == Success("Ned1") <==>
      city.Present? && |city.value| > 0 && city.value[0].countryName.Present?
      && IsUnitedStates(city.value[0].countryName.value)
  {
    if city.Present? && |city.value| > 0 && city.value[0].countryName.Present? {
      var name := city.value[0].countryName.value;
      var low := Lower(name);
      if |name| == |UnitedStates| {
        forall i | 0 <= i < |name|
          ensures low[i] == UnitedStates[i] <==> name[i] == UnitedStates[i] || name[i] == UpperChar(UnitedStates[i])
        {
          LowerCharIs(name[i], UnitedStates[i]);
        }
        if IsUnitedStates(name) {
          assert low == UnitedStates;
        }
      }
    }
  }

  // ---------------------------------------------------------------------------
  // Orbit file

  /** One hit of the orbit-file query: its id, `metadata.platform`, and the
      urls of `metadata.context.localize_urls`. */
  datatype OrbitHit = OrbitHit(id: string, platform: string, localizeUrls: seq<string>)

  /** `(True, id, url)`, `(False, None, None)`, or the `IndexError` raised
      when the chosen hit lists no url. */
  datatype OrbitFile = Found(id: string, url: string) | NotFound | NoUrl(id: string)

  predicate FirstMatchAt(hits: seq<OrbitHit>, platform: string, k: int) {
    && 0 <= k < |hits|
    && hits[k].platform == platform
    && forall i | 0 <= i < k :: hits[i].platform != platform
  }

  /** The search loop of `get_orbit_file` over hits already fetched. */
  method GetOrbitFile(hits: seq<OrbitHit>, platform: string) returns (r: OrbitFile)
    ensures r.NotFound? <==> forall i | 0 <= i < |hits| :: hits[i].platform != platform
    ensures r.Found? ==> exists k :: (FirstMatchAt(hits, platform, k)
      && r.id == hits[k].id && |hits[k].localizeUrls| > 0 && r.url == hits[k].localizeUrls[0])
    ensures r.NoUrl? ==> exists k :: (FirstMatchAt(hits, platform, k)
      && r.id == hits[k].id && |hits[k].localizeUrls| == 0)
  {
    for i := 0 to |hits|
      invariant forall j | 0 <= j < i :: hits[j].platform != platform
    {
      if hits[i].platform == platform {
        assert FirstMatchAt(hits, platform, i);
        if |hits[i].localizeUrls| == 0 {
          return NoUrl(hits[i].id);
        }
        return Found(hits[i].id, hits[i].localizeUrls[0]);
      }
    }
    return NotFound;
  }
}

=== FILE: geometry.dfy ===
/**
  The shoelace area `get_area` of sling_standard_product.py and the winding
  fix `create_dataset_json` applies to the outer ring of `union_geojson`
  before it becomes the dataset's location. Coordinates are exact reals.
*/
module Geometry {
  import opened Common

  /** One GeoJSON position: `coords[i][0]` is the longitude, `coords[i][1]` the latitude. */
  datatype Point = Point(lon: real, lat: real)

  /** A polygon ring as GeoJSON lists it; a closed ring repeats its first point last. */
  type Ring = seq<Point>

  predicate Closed(r: Ring) {
    |r| > 0 && r[0] == r[|r| - 1]
  }

  /** What one edge a -> b adds to the source's shoelace sum (before halving). */
  function Cross(a: Point, b: Point): real {
    a.lat * b.lon - b.lat * a.lon
  }

  /** The shoelace sum over consecutive points of the open path (no closing edge). */
  function PathSum(r: Ring): real {
    if |r| < 2 then 0.0 else Cross(r[0], r[1]) + PathSum(r[1..])
  }

  /** Signed area of `r` read as a closed polygon: the open path plus the edge
      from the last point back to the first, halved. Positive is what this
      system calls clockwise. */
  function Area(r: Ring): real {
    if |r| == 0 then 0.0 else (PathSum(r) + Cross(r[|r| - 1], r[0])) / 2.0
  }

  lemma {:induction false} PathSumSnoc(r: Ring, p: Point)
    requires |r| >= 1
    ensures PathSum(r + [p]) == PathSum(r) + Cross(r[|r| - 1], p)
  {
    if |r| >= 2 {
      assert (r + [p])[1..] == r[1..] + [p];
      PathSumSnoc(r[1..], p);
    }
  }

  lemma CyclicSuccessor(i: nat, n: nat)
    requires i < n
    ensures (i + 1) % n == if i + 1 < n then i + 1 else 0
  {
  }

  /** `get_area`: one pass over the corners, pairing each with its cyclic successor. */
  method GetArea(coords: Ring) returns (area: real)
    ensures area == Area(coords)
  {
    var n := |coords|;
    area := 0.0;
    for i := 0 to n
      invariant i < n ==> area == PathSum(coords[..i + 1])
      invariant 0 < n && i == n ==> area == PathSum(coords) + Cross(coords[n - 1], coords[0])
      invariant n == 0 ==> area == 0.0
    {
      var j := (i + 1) % n;
      CyclicSuccessor(i, n);
      ghost var before := area;
      area := area + coords[i].lat * coords[j].lon;
      area := area - coords[j].lat * coords[i].lon;
      assert area == before + Cross(coords[i], coords[j]);
      if i + 1 < n {
        assert coords[..i + 2] == coords[..i + 1] + [coords[i + 1]];
        PathSumSnoc(coords[..i + 1], coords[i + 1]);
      } else {
        assert coords[..i + 1] == coords;
      }
    }
    area := area / 2.0;
  }

  /** Walking the path backwards negates every edge's contribution. */
  lemma {:induction false} ReversePathSum(r: Ring)
    ensures PathSum(Reverse(r)) == -PathSum(r)
  {
    if |r| >= 2 {
      var back := Reverse(r[1..]);
      assert Reverse(r) == back + [r[0]];
      assert back[|back| - 1] == r[1];
      PathSumSnoc(back, r[0]);
      ReversePathSum(r[1..]);
    }
  }

  /** Reversing a ring negates its signed area: the fact the one-reversal fix relies on. */
  lemma ReverseNegatesArea(r: Ring)
    ensures Area(Reverse(r)) == -Area(r)
  {
    if |r| > 0 {
      ReversePathSum(r);
    }
  }

  /** Which of the three log messages the winding fix emitted. */
  datatype WindingNote = AlreadyClockwise | Reversed | StillNotClockwise

  /** The dataset's `location`: the polygon coordinates and how they were obtained. */
  datatype Location = Location(coordinates: seq<Ring>, note: WindingNote)

  /**
    The `location` block of `create_dataset_json`. With no outer ring the
    source's `coordinates[0]` raises, the handler swallows it and no location
    is written: `None`. A ring whose area is not positive is reversed once;
    the reversed ring alone is kept, so inner rings are dropped.
  */
  function DatasetLocation(coordinates: seq<Ring>): (loc: Option<Location>)
    ensures loc == None <==> |coordinates| == 0
    ensures loc.Some? ==> |loc.value.coordinates| >= 1
    ensures loc.Some? && Area(coordinates[0]) > 0.0 ==>
      loc.value == Location(coordinates, AlreadyClockwise)
    ensures loc.Some? && Area(coordinates[0]) <= 0.0 ==>
      loc.value.coordinates == [Reverse(coordinates[0])]
    ensures loc.Some? ==> Area(loc.value.coordinates[0]) >= 0.0
    ensures loc.Some? ==> (Area(loc.value.coordinates[0]) > 0.0 <==> Area(coordinates[0]) != 0.0)
    ensures loc.Some? ==> (loc.value.note == StillNotClockwise <==> Area(coordinates[0]) == 0.0)
    ensures loc.Some? && Area(coordinates[0]) < 0.0 ==> loc.value.note == Reversed
    ensures loc.Some? ==> |loc.value.coordinates[0]| == |coordinates[0]|
    ensures loc.Some? && Closed(coordinates[0]) ==> Closed(loc.value.coordinates[0])
  {
    if |coordinates| == 0 then None
    else if Area(coordinates[0]) > 0.0 then Some(Location(coordinates, AlreadyClockwise))
    else
      var outer := Reverse(coordinates[0]);
      ReverseNegatesArea(coordinates[0]);
      Some(Location([outer], if Area(outer) > 0.0 then Reversed else StillNotClockwise))
  }

  /** The union polygon of the sample candidate pair hard-coded in
      initiate_standard_product_enumurator.py. */
  function SampleUnionRing(): Ring {
    [
      Point(114.340401, -8.231028),
      Point(114.34057893068714, -8.230987954571027),
      Point(113.975792, -6.564369),
      Point(116.197609, -6.068401),
      Point(116.19765497529309, -6.068605119889187),
      Point(116.197884, -6.068554),
      Point(116.5997637151398, -7.852971167971122),
      Point(116.98259, -9.522411),
      Point(114.739487, -10.031385),
      Point(114.37047609067962, -8.36670276691912),
      Point(114.370293, -8.366744),
      Point(114.35522339174503, -8.297894782435131),
      Point(114.340401, -8.231028)
    ]
  }

  lemma PathSumStep(r: Ring, i: nat)
    requires i + 1 < |r|
    ensures PathSum(r[i..]) == Cross(r[i], r[i + 1]) + PathSum(r[i + 1..])
  {
    assert r[i..][1..] == r[i + 1..];
  }

  /** The shoelace sum of the sample ring, unfolded edge by edge. */
  lemma SampleUnionRingPathSum()
    ensures var r := SampleUnionRing();
      PathSum(r) == Cross(r[0], r[1]) + Cross(r[1], r[2]) + Cross(r[2], r[3]) + Cross(r[3], r[4])
        + Cross(r[4], r[5]) + Cross(r[5], r[6]) + PathSum(r[6..])
    ensures var r := SampleUnionRing();
      PathSum(r[6..]) == Cross(r[6], r[7]) + Cross(r[7], r[8]) + Cross(r[8], r[9]) + Cross(r[9], r[10])
        + Cross(r[10], r[11]) + Cross(r[11], r[12])
  {
    var r := SampleUnionRing();
    assert r[0..] == r;
    assert PathSum(r[12..]) == 0.0;
    PathSumStep(r, 11);
    PathSumStep(r, 10);
    PathSumStep(r, 9);
    PathSumStep(r, 8);
    PathSumStep(r, 7);
    PathSumStep(r, 6);
    PathSumStep(r, 5);
    PathSumStep(r, 4);
    PathSumStep(r, 3);
    PathSumStep(r, 2);
    PathSumStep(r, 1);
    PathSumStep(r, 0);
  }

  /** The sample ring is closed and already clockwise, so the fix leaves it unchanged. */
  lemma SampleUnionRingIsClockwise()
    ensures Closed(SampleUnionRing())
    ensures Area(SampleUnionRing()) > 0.0
    ensures DatasetLocation([SampleUnionRing()]) == Some(Location([SampleUnionRing()], AlreadyClockwise))
  {
    SampleUnionRingPathSum();
  }
}

=== FILE: selector.dfy ===
/**
  The per-AOI track/date selection of orbit_acquisition_selector.py
  (`get_covered_acquisitions_by_track_date`) and the per-AOI bookkeeping of
  `query_aoi_acquisitions` that consumes it.

  The grouping `util.group_acqs_by_track_date_from_metadata` and the coverage
  test `gtUtil.water_mask_check` are not part of this model: the grouping is
  an input and the coverage test a function parameter whose internals are
  left unspecified.
*/
module Selector {
  import opened Common

  type DateKey = string

  /** One record of the flat `acq_info` index; the selector passes it through unchanged. */
  datatype Acquisition = Acquisition(
    id: AcqId,
    track: int,
    starttime: string,
    endtime: string,
    platform: string,
    processingVersion: Option<string>)

  /** The acquisitions of one track that share one date bucket, in arrival order. */
  datatype Cluster = Cluster(date: DateKey, ids: seq<AcqId>)

  /** One track of the grouping with its date buckets in dict order. */
  datatype TrackGroup = TrackGroup(track: int, clusters: seq<Cluster>)

  /** What the grouping step hands over: `grouped` and the `acq_info` index. */
  datatype Grouped = Grouped(tracks: seq<TrackGroup>, acqInfo: map<AcqId, Acquisition>)

  /** The keys of a dict kept as a sequence of entries, in dict order. */
  function Keys<T, K>(entries: seq<T>, key: T -> K): (keys: seq<K>)
    ensures |keys| == |entries|
    ensures forall i | 0 <= i < |entries| :: keys[i] == key(entries[i])
  {
    if |entries| == 0 then [] else [key(entries[0])] + Keys(entries[1..], key)
  }

  function TrackKeys(tracks: seq<TrackGroup>): (keys: seq<int>)
    ensures |keys| == |tracks|
    ensures forall i | 0 <= i < |tracks| :: keys[i] == tracks[i].track
  {
    Keys(tracks, (t: TrackGroup) => t.track)
  }

  function DateKeys(clusters: seq<Cluster>): (keys: seq<DateKey>)
    ensures |keys| == |clusters|
    ensures forall i | 0 <= i < |clusters| :: keys[i] == clusters[i].date
  {
    Keys(clusters, (c: Cluster) => c.date)
  }

  /** The grouping is a dict of dicts: track keys are distinct, and so are the
      date keys within each track. */
  predicate WellFormed(tracks: seq<TrackGroup>) {
    && Distinct(TrackKeys(tracks))
    && forall i | 0 <= i < |tracks| :: Distinct(DateKeys(tracks[i].clusters))
  }

  /** The fifteen fields of `water_mask_check`'s result dict that go into a report row. */
  datatype Report = Report(
    dt: string,
    track: string,
    trackPoeorbLand: string,
    acqUnionPoeorbLand: string,
    acqUnionLandArea: string,
    res: string,
    waterMaskPassed: string,
    masterIpfCount: string,
    slaveIpfCount: string,
    matched: string,
    blPassed: string,
    candidatePairs: string,
    trackAoiIntersection: string,
    acqPoeorbAoiIntersection: string,
    acqUnionAoiIntersection: string)

  /** The header row written when the AOI's `RESULT_SUMMARY_<aoi>.csv` is created,
      with the source's own spelling of every column. */
  const ResultHeader: seq<string> := [
    "Date", "Track", "Track_PEORB_Land", "ACQ_Union_POEORB_Land", "ACQ_Union_Land",
    "RES", "WATER_MASK_PASSED", "Master_Ipf_Count", "Slave_Ipf_Count", "MATCHED",
    "BL_PASSED", "Candidate_Pairs", "Track_AOI_Intersection",
    "ACQ_POEORB_AOI_Intersection", "ACQ_AOI_Ingtersection"]

  /** One report row, fields in header order. */
  function CsvRow(r: Report): (row: seq<string>)
    ensures |row| == |ResultHeader| == 15
    ensures row[0] == r.dt && row[1] == r.track && row[6] == r.waterMaskPassed
  {
    [r.dt, r.track, r.trackPoeorbLand, r.acqUnionPoeorbLand, r.acqUnionLandArea,
     r.res, r.waterMaskPassed, r.masterIpfCount, r.slaveIpfCount, r.matched,
     r.blPassed, r.candidatePairs, r.trackAoiIntersection,
     r.acqPoeorbAoiIntersection, r.acqUnionAoiIntersection]
  }

  /** What `water_mask_check` returns: the decision and the result dict. */
  datatype Verdict = Verdict(selected: bool, report: Report)

  /** `water_mask_check` with the per-AOI arguments (acquisition index, AOI
      location and id, threshold, orbit file and directory) already supplied. */
  type CoverageCheck = (int, DateKey, seq<AcqId>) -> Verdict

  /** `mission` as derived from the platform before the loop. */
  function MissionOf(platform: string): (mission: string)
    ensures mission == "S1A" || mission == "S1B"
    ensures mission == "S1B" <==> platform == "Sentinel-1B"
  {
    if platform == "Sentinel-1B" then "S1B" else "S1A"
  }

  /** The skip test: an empty allow-list admits every track. */
  predicate TrackAllowed(allow: seq<int>, track: int) {
    |allow| == 0 || track in allow
  }

  /** `ids[k]` is the first of `ids` that is not a key of `info`. */
  predicate FirstUnindexedAt(ids: seq<AcqId>, info: map<AcqId, Acquisition>, k: int) {
    && 0 <= k < |ids|
    && ids[k] !in info
    && forall j | 0 <= j < k :: ids[j] in info
  }

  /** `grouped_matched["acq_info"][acq_id]` for every id of a cluster, in order;
      the first id that is not a key makes the source raise `KeyError`. */
  function LookupAll(ids: seq<AcqId>, info: map<AcqId, Acquisition>): (r: Result<seq<Acquisition>, AcqId>)
    ensures r.Success? <==> forall i | 0 <= i < |ids| :: ids[i] in info
    ensures r.Success? ==> |r.value| == |ids| && forall i | 0 <= i < |ids| :: r.value[i] == info[ids[i]]
    ensures r.Failure? ==> exists k :: FirstUnindexedAt(ids, info, k) && ids[k] == r.error
  {
    if |ids| == 0 then Success([])
    else if ids[0] !in info then
      assert FirstUnindexedAt(ids, info, 0);
      Failure(ids[0])
    else match LookupAll(ids[1..], info)
      case Success(rest) => Success([info[ids[0]]] + rest)
      case Failure(id) =>
        assert forall k | FirstUnindexedAt(ids[1..], info, k) :: FirstUnindexedAt(ids, info, k + 1);
        Failure(id)
  }

  /** The acquisitions chosen for one date of a track. */
  datatype DateSelection = DateSelection(date: DateKey, acqs: seq<Acquisition>)

  /** The entry `selected_track_acqs[track]`: the chosen dates in evaluation order. */
  datatype TrackSelection = TrackSelection(track: int, dates: seq<DateSelection>)

  /** The state of the loop after some clusters: what was assembled, the report
      rows appended so far, and the id whose lookup raised, if one did. */
  datatype Run<T> = Run(value: T, log: seq<seq<string>>, missing: Option<AcqId>)

  /** The inner loop over one track's dates: check, append the row, and for a
      selected date look every acquisition up. */
  function SelectDates(track: int, clusters: seq<Cluster>, info: map<AcqId, Acquisition>,
                       check: CoverageCheck): Run<seq<DateSelection>>
  {
    if |clusters| == 0 then Run([], [], None)
    else
      var c := clusters[0];
      var verdict := check(track, c.date, c.ids);
      var row := CsvRow(verdict.report);
      if !verdict.selected then
        var rest := SelectDates(track, clusters[1..], info, check);
        Run(rest.value, [row] + rest.log, rest.missing)
      else match LookupAll(c.ids, info)
        case Failure(id) => Run([], [row], Some(id))
        case Success(acqs) =>
          var rest := SelectDates(track, clusters[1..], info, check);
          Run([DateSelection(c.date, acqs)] + rest.value, [row] + rest.log, rest.missing)
  }

  /** The outer loop over tracks: skip tracks outside a non-empty allow-list,
      otherwise record the track with whatever dates were selected. */
  function SelectTracks(tracks: seq<TrackGroup>, info: map<AcqId, Acquisition>, allow: seq<int>,
                        check: CoverageCheck): Run<seq<TrackSelection>>
  {
    if |tracks| == 0 then Run([], [], None)
    else
      var t := tracks[0];
      if !TrackAllowed(allow, t.track) then SelectTracks(tracks[1..], info, allow, check)
      else
        var here := SelectDates(t.track, t.clusters, info, check);
        if here.missing.Some? then Run([], here.log, here.missing)
        else
          var rest := SelectTracks(tracks[1..], info, allow, check);
          Run([TrackSelection(t.track, here.value)] + rest.value, here.log + rest.log, rest.missing)
  }

  /** The result of `get_covered_acquisitions_by_track_date` for one AOI: the
      selection with its report rows, or the `KeyError` with the rows already
      written when it was raised. */
  datatype Outcome =
    | Selected(selection: seq<TrackSelection>, log: seq<seq<string>>)
    | KeyMissing(id: AcqId, log: seq<seq<string>>)

  /** `get_covered_acquisitions_by_track_date`. `waterMask` stands for
      `gtUtil.water_mask_check`; it receives the mission derived from the platform.
      The run succeeds exactly when every id of every selected cluster of an
      allowed track is indexed. Otherwise the `KeyError` names the first
      unindexed id of the first such cluster, in evaluation order, and the
      report holds every row up to and including that cluster's. */
  function GetCoveredAcquisitionsByTrackDate(g: Grouped, platform: string, allow: seq<int>,
                                             waterMask: (string, int, DateKey, seq<AcqId>) -> Verdict): (o: Outcome)
    ensures var check := (t: int, d: DateKey, ids: seq<AcqId>) => waterMask(MissionOf(platform), t, d, ids);
      && o.log <= ExpectedLog(g.tracks, allow, check)
      && (o.Selected? <==> TracksIndexed(g.tracks, g.acqInfo, allow, check))
      && (o.Selected? ==> o.log == ExpectedLog(g.tracks, allow, check))
      && (o.Selected? ==> SelectionTracks(o.selection) == AllowedTracks(g.tracks, allow))
      && (o.KeyMissing? ==> o.id !in g.acqInfo)
      && (o.KeyMissing? ==> exists k, j :: TrackStopsAt(g.tracks, g.acqInfo, allow, check, o.id, o.log, k, j))
      && (o.KeyMissing? ==> exists k | 0 <= k < |g.tracks| ::
            TrackAllowed(allow, g.tracks[k].track) && InSelectedCluster(g.tracks[k].track, g.tracks[k].clusters, check, o.id))
  {
    var mission := MissionOf(platform);
    var check := (t: int, d: DateKey, ids: seq<AcqId>) => waterMask(mission, t, d, ids);
    var run := SelectTracks(g.tracks, g.acqInfo, allow, check);
    LogIsOneRowPerEvaluatedCluster(g.tracks, g.acqInfo, allow, check);
    SelectedTracksAreAllowedTracks(g.tracks, g.acqInfo, allow, check);
    MissingIdIsNotIndexed(g.tracks, g.acqInfo, allow, check);
    TracksSucceedIffIndexed(g.tracks, g.acqInfo, allow, check);
    if run.missing.Some? then KeyMissing(run.missing.value, run.log) else Selected(run.value, run.log)
  }

  // ---------------------------------------------------------------------------
  // Reference definitions: what the loop evaluates and what it should log.

  /** The report rows for a track's clusters, one per cluster, in order. */
  function ClusterRows(track: int, clusters: seq<Cluster>, check: CoverageCheck): (rows: seq<seq<string>>)
    ensures |rows| == |clusters|
    ensures forall j | 0 <= j < |clusters| ::
      rows[j] == CsvRow(check(track, clusters[j].date, clusters[j].ids).report)
  {
    if |clusters| == 0 then []
    else [CsvRow(check(track, clusters[0].date, clusters[0].ids).report)] + ClusterRows(track, clusters[1..], check)
  }

  /** The report a run with no failing lookup writes: the rows of every cluster
      of every allowed track, tracks and dates in dict order. */
  function ExpectedLog(tracks: seq<TrackGroup>, allow: seq<int>, check: CoverageCheck): seq<seq<string>>
  {
    if |tracks| == 0 then []
    else
      var t := tracks[0];
      (if TrackAllowed(allow, t.track) then ClusterRows(t.track, t.clusters, check) else [])
        + ExpectedLog(tracks[1..], allow, check)
  }

  /** How many clusters the loop evaluates: those of the allowed tracks. */
  function EvaluatedCount(tracks: seq<TrackGroup>, allow: seq<int>): nat {
    if |tracks| == 0 then 0
    else
      var here := if TrackAllowed(allow, tracks[0].track) then |tracks[0].clusters| else 0;
      here + EvaluatedCount(tracks[1..], allow)
  }

  /** The track keys of the allow-list filter, in dict order. */
  function AllowedTracks(tracks: seq<TrackGroup>, allow: seq<int>): seq<int> {
    if |tracks| == 0 then []
    else
      var here := if TrackAllowed(allow, tracks[0].track) then [tracks[0].track] else [];
      here + AllowedTracks(tracks[1..], allow)
  }

  function SelectionTracks(sel: seq<TrackSelection>): (keys: seq<int>)
    ensures |keys| == |sel|
    ensures forall i | 0 <= i < |sel| :: keys[i] == sel[i].track
  {
    Keys(sel, (t: TrackSelection) => t.track)
  }

  function SelectionDates(sel: seq<DateSelection>): (keys: seq<DateKey>)
    ensures |keys| == |sel|
    ensures forall i | 0 <= i < |sel| :: keys[i] == sel[i].date
  {
    Keys(sel, (d: DateSelection) => d.date)
  }

  /** The dates of a track whose verdict is "selected", in order. */
  function SelectedDates(track: int, clusters: seq<Cluster>, check: CoverageCheck): seq<DateKey> {
    if |clusters| == 0 then []
    else
      var here := if check(track, clusters[0].date, clusters[0].ids).selected then [clusters[0].date] else [];
      here + SelectedDates(track, clusters[1..], check)
  }

  /** Dict lookup `selected_track_acqs[track]`. */
  function FindTrack(sel: seq<TrackSelection>, track: int): Option<seq<DateSelection>> {
    if |sel| == 0 then None
    else if sel[0].track == track then Some(sel[0].dates)
    else FindTrack(sel[1..], track)
  }

  /** Dict lookup `selected_track_dt_acqs[date]`. */
  function FindDate(sel: seq<DateSelection>, date: DateKey): Option<seq<Acquisition>> {
    if |sel| == 0 then None
    else if sel[0].date == date then Some(sel[0].acqs)
    else FindDate(sel[1..], date)
  }

  /** Every id of every cluster the check selects is a key of `acq_info`. */
  predicate DatesIndexed(track: int, clusters: seq<Cluster>, info: map<AcqId, Acquisition>, check: CoverageCheck) {
    forall j | 0 <= j < |clusters| ::
      check(track, clusters[j].date, clusters[j].ids).selected ==>
        forall i | 0 <= i < |clusters[j].ids| :: clusters[j].ids[i] in info
  }

  /** `DatesIndexed` for every track the allow-list admits. */
  predicate TracksIndexed(tracks: seq<TrackGroup>, info: map<AcqId, Acquisition>, allow: seq<int>, check: CoverageCheck) {
    forall k | 0 <= k < |tracks| ::
      TrackAllowed(allow, tracks[k].track) ==> DatesIndexed(tracks[k].track, tracks[k].clusters, info, check)
  }

  /** `id` is listed in a cluster the check selects. */
  predicate InSelectedCluster(track: int, clusters: seq<Cluster>, check: CoverageCheck, id: AcqId) {
    exists j | 0 <= j < |clusters| :: check(track, clusters[j].date, clusters[j].ids).selected && id in clusters[j].ids
  }

  // ---------------------------------------------------------------------------
  // The decision log.

  /** The date loop stopped at `clusters[j]`: every earlier selected date
      looked up cleanly, and this selected date's lookup raised on `id`, after
      the rows up to and including its own were written. */
  predicate StopsAt(track: int, clusters: seq<Cluster>, info: map<AcqId, Acquisition>, check: CoverageCheck,
                    id: AcqId, log: seq<seq<string>>, j: int) {
    && 0 <= j < |clusters|
    && DatesIndexed(track, clusters[..j], info, check)
    && check(track, clusters[j].date, clusters[j].ids).selected
    && LookupAll(clusters[j].ids, info) == Failure(id)
    && log == ClusterRows(track, clusters[..j + 1], check)
  }

  /** The date loop writes one row per date, whatever the verdict, in order. A
      failing lookup stops it right after the row of the selected date whose
      first unindexed id raised. */
  lemma {:induction false} DateLogIsClusterRows(track: int, clusters: seq<Cluster>,
                                                info: map<AcqId, Acquisition>, check: CoverageCheck)
    ensures var run := SelectDates(track, clusters, info, check);
      && run.log <= ClusterRows(track, clusters, check)
      && (run.missing.None? ==> run.log == ClusterRows(track, clusters, check))
      && (run.missing.Some? ==> exists j :: StopsAt(track, clusters, info, check, run.missing.value, run.log, j))
  {
    DateLogIsPrefix(track, clusters, info, check);
    DateLogStopsAtFailure(track, clusters, info, check);
  }

  lemma {:induction false} DateLogIsPrefix(track: int, clusters: seq<Cluster>,
                                           info: map<AcqId, Acquisition>, check: CoverageCheck)
    ensures var run := SelectDates(track, clusters, info, check);
      && run.log <= ClusterRows(track, clusters, check)
      && (run.missing.None? ==> run.log == ClusterRows(track, clusters, check))
  {
    if |clusters| > 0 {
      DateLogIsPrefix(track, clusters[1..], info, check);
    }
  }

  lemma {:induction false} DateLogStopsAtFailure(track: int, clusters: seq<Cluster>,
                                                 info: map<AcqId, Acquisition>, check: CoverageCheck)
    ensures var run := SelectDates(track, clusters, info, check);
      run.missing.Some? ==> exists j :: StopsAt(track, clusters, info, check, run.missing.value, run.log, j)
  {
    if |clusters| > 0 {
      DateLogStopsAtFailure(track, clusters[1..], info, check);
      DateLogStops(track, clusters, info, check);
    }
  }

  lemma DateLogStops(track: int, clusters: seq<Cluster>, info: map<AcqId, Acquisition>, check: CoverageCheck)
    requires |clusters| > 0
    requires var rest := SelectDates(track, clusters[1..], info, check);
      rest.missing.Some? ==> exists j :: StopsAt(track, clusters[1..], info, check, rest.missing.value, rest.log, j)
    ensures var run := SelectDates(track, clusters, info, check);
      run.missing.Some? ==> exists j :: StopsAt(track, clusters, info, check, run.missing.value, run.log, j)
  {
    var c := clusters[0];
    var run := SelectDates(track, clusters, info, check);
    var rest := SelectDates(track, clusters[1..], info, check);
    if run.missing.Some? {
      if check(track, c.date, c.ids).selected && LookupAll(c.ids, info).Failure? {
        assert clusters[..1] == [c];
        assert StopsAt(track, clusters, info, check, run.missing.value, run.log, 0);
      } else {
        var row := CsvRow(check(track, c.date, c.ids).report);
        assert run.missing == rest.missing && run.log == [row] + rest.log;
        var j :| StopsAt(track, clusters[1..], info, check, rest.missing.value, rest.log, j);
        assert run.log == ClusterRows(track, clusters[..j + 2], check) by {
          ClusterRowsCons(track, clusters, check, j + 2);
        }
        assert clusters[j + 1] == clusters[1..][j];
        assert DatesIndexed(track, clusters[..j + 1], info, check) by {
          DatesIndexedCons(track, clusters, info, check, j + 1);
        }
        assert StopsAt(track, clusters, info, check, run.missing.value, run.log, j + 1);
      }
    }
  }

  lemma DatesIndexedCons(track: int, clusters: seq<Cluster>, info: map<AcqId, Acquisition>,
                         check: CoverageCheck, n: nat)
    requires 0 < n <= |clusters|
    requires check(track, clusters[0].date, clusters[0].ids).selected ==>
      LookupAll(clusters[0].ids, info).Success?
    requires DatesIndexed(track, clusters[1..][..n - 1], info, check)
    ensures DatesIndexed(track, clusters[..n], info, check)
  {
    forall m | 1 <= m < n ensures clusters[..n][m] == clusters[1..][..n - 1][m - 1] { }
  }

  lemma ClusterRowsCons(track: int, clusters: seq<Cluster>, check: CoverageCheck, n: nat)
    requires 0 < n <= |clusters|
    ensures ClusterRows(track, clusters[..n], check)
         == [CsvRow(check(track, clusters[0].date, clusters[0].ids).report)] + ClusterRows(track, clusters[1..][..n - 1], check)
  {
    assert clusters[..n][1..] == clusters[1..][..n - 1];
  }

  /** The date loop completes exactly when every selected date's ids are all indexed. */
  lemma {:induction false} DatesSucceedIffIndexed(track: int, clusters: seq<Cluster>,
                                                  info: map<AcqId, Acquisition>, check: CoverageCheck)
    ensures SelectDates(track, clusters, info, check).missing.None? <==> DatesIndexed(track, clusters, info, check)
  {
    if |clusters| > 0 {
      var c := clusters[0];
      DatesSucceedIffIndexed(track, clusters[1..], info, check);
      assert DatesIndexed(track, clusters, info, check) <==>
        && (check(track, c.date, c.ids).selected ==> forall i | 0 <= i < |c.ids| :: c.ids[i] in info)
        && DatesIndexed(track, clusters[1..], info, check)
      by {
        forall j | 1 <= j < |clusters| ensures clusters[j] == clusters[1..][j - 1] { }
      }
    }
  }

  /** The track loop completes exactly when every selected date of every
      allowed track has all its ids indexed. */
  lemma {:induction false} TracksSucceedIffIndexed(tracks: seq<TrackGroup>, info: map<AcqId, Acquisition>,
                                                   allow: seq<int>, check: CoverageCheck)
    ensures SelectTracks(tracks, info, allow, check).missing.None? <==> TracksIndexed(tracks, info, allow, check)
  {
    if |tracks| > 0 {
      var t := tracks[0];
      DatesSucceedIffIndexed(t.track, t.clusters, info, check);
      TracksSucceedIffIndexed(tracks[1..], info, allow, check);
      assert TracksIndexed(tracks, info, allow, check) <==>
        && (TrackAllowed(allow, t.track) ==> DatesIndexed(t.track, t.clusters, info, check))
        && TracksIndexed(tracks[1..], info, allow, check)
      by {
        forall k | 1 <= k < |tracks| ensures tracks[k] == tracks[1..][k - 1] { }
      }
    }
  }

  /** Exactly one report row per evaluated (track, date), whatever the verdict,
      in evaluation order; a failing lookup stops the report after the row of
      the first selected cluster, in evaluation order, whose lookup raises. */
  lemma LogIsOneRowPerEvaluatedCluster(tracks: seq<TrackGroup>, info: map<AcqId, Acquisition>,
                                       allow: seq<int>, check: CoverageCheck)
    ensures var run := SelectTracks(tracks, info, allow, check);
      && run.log <= ExpectedLog(tracks, allow, check)
      && (run.missing.None? ==> run.log == ExpectedLog(tracks, allow, check))
      && (run.missing.Some? ==> exists k, j :: TrackStopsAt(tracks, info, allow, check, run.missing.value, run.log, k, j))
      && |ExpectedLog(tracks, allow, check)| == EvaluatedCount(tracks, allow)
  {
    LogIsPrefixOfExpected(tracks, info, allow, check);
    TrackLogStopsAtFailure(tracks, info, allow, check);
  }

  lemma {:induction false} LogIsPrefixOfExpected(tracks: seq<TrackGroup>, info: map<AcqId, Acquisition>,
                                                 allow: seq<int>, check: CoverageCheck)
    ensures var run := SelectTracks(tracks, info, allow, check);
      && run.log <= ExpectedLog(tracks, allow, check)
      && (run.missing.None? ==> run.log == ExpectedLog(tracks, allow, check))
      && |ExpectedLog(tracks, allow, check)| == EvaluatedCount(tracks, allow)
  {
    if |tracks| > 0 {
      LogIsPrefixOfExpected(tracks[1..], info, allow, check);
      if TrackAllowed(allow, tracks[0].track) {
        AllowedTrackLogStep(tracks, info, allow, check);
      }
    }
  }

  /** One allowed track: its date rows come first, then those of the remaining tracks. */
  lemma AllowedTrackLogStep(tracks: seq<TrackGroup>, info: map<AcqId, Acquisition>,
                            allow: seq<int>, check: CoverageCheck)
    requires |tracks| > 0 && TrackAllowed(allow, tracks[0].track)
    requires var restRun := SelectTracks(tracks[1..], info, allow, check);
      && restRun.log <= ExpectedLog(tracks[1..], allow, check)
      && (restRun.missing.None? ==> restRun.log == ExpectedLog(tracks[1..], allow, check))
    ensures var run := SelectTracks(tracks, info, allow, check);
      && run.log <= ExpectedLog(tracks, allow, check)
      && (run.missing.None? ==> run.log == ExpectedLog(tracks, allow, check))
  {
    var t := tracks[0];
    DateLogIsPrefix(t.track, t.clusters, info, check);
    var here := SelectDates(t.track, t.clusters, info, check);
    var rows := ClusterRows(t.track, t.clusters, check);
    var rest := ExpectedLog(tracks[1..], allow, check);
    assert ExpectedLog(tracks, allow, check) == rows + rest;
    if here.missing.Some? {
      assert here.log <= rows + rest;
    } else {
      var restRun := SelectTracks(tracks[1..], info, allow, check);
      assert here.log + restRun.log <= rows + rest;
    }
  }

  /** The track loop stopped in `tracks[k]`: every earlier allowed track
      looked up cleanly and wrote all its rows, then the date loop of the
      allowed track `tracks[k]` stopped at its date `j` on `id`. */
  predicate TrackStopsAt(tracks: seq<TrackGroup>, info: map<AcqId, Acquisition>, allow: seq<int>,
                         check: CoverageCheck, id: AcqId, log: seq<seq<string>>, k: int, j: int) {
    && 0 <= k < |tracks|
    && TracksIndexed(tracks[..k], info, allow, check)
    && TrackAllowed(allow, tracks[k].track)
    && var before := ExpectedLog(tracks[..k], allow, check);
       && before <= log
       && StopsAt(tracks[k].track, tracks[k].clusters, info, check, id, log[|before|..], j)
  }

  /** A failing run stopped at the first selected cluster, in evaluation order,
      whose lookup raises, and its report is every row up to that cluster's. */
  lemma {:induction false} TrackLogStopsAtFailure(tracks: seq<TrackGroup>, info: map<AcqId, Acquisition>,
                                                  allow: seq<int>, check: CoverageCheck)
    ensures var run := SelectTracks(tracks, info, allow, check);
      run.missing.Some? ==> exists k, j :: TrackStopsAt(tracks, info, allow, check, run.missing.value, run.log, k, j)
  {
    if |tracks| > 0 {
      TrackLogStopsAtFailure(tracks[1..], info, allow, check);
      TrackLogStops(tracks, info, allow, check);
    }
  }

  lemma TrackLogStops(tracks: seq<TrackGroup>, info: map<AcqId, Acquisition>, allow: seq<int>, check: CoverageCheck)
    requires |tracks| > 0
    requires var rest := SelectTracks(tracks[1..], info, allow, check);
      rest.missing.Some? ==> exists k, j :: TrackStopsAt(tracks[1..], info, allow, check, rest.missing.value, rest.log, k, j)
    ensures var run := SelectTracks(tracks, info, allow, check);
      run.missing.Some? ==> exists k, j :: TrackStopsAt(tracks, info, allow, check, run.missing.value, run.log, k, j)
  {
    var t := tracks[0];
    if TrackAllowed(allow, t.track) && SelectDates(t.track, t.clusters, info, check).missing.Some? {
      StopInFirstTrack(tracks, info, allow, check);
    } else {
      StopInLaterTrack(tracks, info, allow, check);
    }
  }

  lemma StopInFirstTrack(tracks: seq<TrackGroup>, info: map<AcqId, Acquisition>, allow: seq<int>, check: CoverageCheck)
    requires |tracks| > 0 && TrackAllowed(allow, tracks[0].track)
    requires SelectDates(tracks[0].track, tracks[0].clusters, info, check).missing.Some?
    ensures var run := SelectTracks(tracks, info, allow, check);
      run.missing.Some? && exists j :: TrackStopsAt(tracks, info, allow, check, run.missing.value, run.log, 0, j)
  {
    var t := tracks[0];
    var here := SelectDates(t.track, t.clusters, info, check);
    var run := SelectTracks(tracks, info, allow, check);
    assert run.missing == here.missing && run.log == here.log;
    DateLogIsClusterRows(t.track, t.clusters, info, check);
    var j :| StopsAt(t.track, t.clusters, info, check, here.missing.value, here.log, j);
    StopsInTrackZero(tracks, info, allow, check, run.missing.value, run.log, j);
  }

  /** A first track the run passes without a failure only prepends its rows to the rest of the run. */
  lemma PassedTrackRun(tracks: seq<TrackGroup>, info: map<AcqId, Acquisition>, allow: seq<int>, check: CoverageCheck)
    requires |tracks| > 0
    requires !TrackAllowed(allow, tracks[0].track)
      || SelectDates(tracks[0].track, tracks[0].clusters, info, check).missing.None?
    ensures var t := tracks[0];
      var run := SelectTracks(tracks, info, allow, check);
      var rest := SelectTracks(tracks[1..], info, allow, check);
      && run.missing == rest.missing
      && run.log == (if TrackAllowed(allow, t.track) then ClusterRows(t.track, t.clusters, check) else []) + rest.log
      && (TrackAllowed(allow, t.track) ==> DatesIndexed(t.track, t.clusters, info, check))
  {
    var t := tracks[0];
    if TrackAllowed(allow, t.track) {
      DateLogIsPrefix(t.track, t.clusters, info, check);
      DatesSucceedIffIndexed(t.track, t.clusters, info, check);
    }
  }

  /** A stop inside the first track is a stop of the whole run at track 0. */
  lemma StopsInTrackZero(tracks: seq<TrackGroup>, info: map<AcqId, Acquisition>, allow: seq<int>, check: CoverageCheck,
                         id: AcqId, log: seq<seq<string>>, j: int)
    requires |tracks| > 0 && TrackAllowed(allow, tracks[0].track)
    requires StopsAt(tracks[0].track, tracks[0].clusters, info, check, id, log, j)
    ensures TrackStopsAt(tracks, info, allow, check, id, log, 0, j)
  {
    assert tracks[..0] == [];
    assert log[0..] == log;
  }

  lemma StopInLaterTrack(tracks: seq<TrackGroup>, info: map<AcqId, Acquisition>, allow: seq<int>, check: CoverageCheck)
    requires |tracks| > 0
    requires !TrackAllowed(allow, tracks[0].track)
      || SelectDates(tracks[0].track, tracks[0].clusters, info, check).missing.None?
    requires var rest := SelectTracks(tracks[1..], info, allow, check);
      rest.missing.Some? ==> exists k, j :: TrackStopsAt(tracks[1..], info, allow, check, rest.missing.value, rest.log, k, j)
    ensures var run := SelectTracks(tracks, info, allow, check);
      run.missing.Some? ==> exists k, j :: TrackStopsAt(tracks, info, allow, check, run.missing.value, run.log, k, j)
  {
    var t := tracks[0];
    var run := SelectTracks(tracks, info, allow, check);
    var rest := SelectTracks(tracks[1..], info, allow, check);
    var head := if TrackAllowed(allow, t.track) then ClusterRows(t.track, t.clusters, check) else [];
    PassedTrackRun(tracks, info, allow, check);
    if rest.missing.Some? {
      var k, j :| TrackStopsAt(tracks[1..], info, allow, check, rest.missing.value, rest.log, k, j);
      TrackPrefixCons(tracks, info, allow, check, k + 1);
      assert tracks[k + 1] == tracks[1..][k];
      ShiftedStop(tracks, info, allow, check, run.missing.value, head, rest.log, k, j);
    }
  }

  /** The first `n` tracks: the first track, then the first `n - 1` of the rest. */
  lemma TrackPrefixCons(tracks: seq<TrackGroup>, info: map<AcqId, Acquisition>, allow: seq<int>,
                        check: CoverageCheck, n: nat)
    requires 0 < n <= |tracks|
    ensures var t := tracks[0];
      ExpectedLog(tracks[..n], allow, check)
        == (if TrackAllowed(allow, t.track) then ClusterRows(t.track, t.clusters, check) else [])
           + ExpectedLog(tracks[1..][..n - 1], allow, check)
    ensures var t := tracks[0];
      (TrackAllowed(allow, t.track) ==> DatesIndexed(t.track, t.clusters, info, check))
        && TracksIndexed(tracks[1..][..n - 1], info, allow, check)
      ==> TracksIndexed(tracks[..n], info, allow, check)
  {
    assert tracks[..n][1..] == tracks[1..][..n - 1];
    assert tracks[..n][0] == tracks[0];
    forall m | 1 <= m < n ensures tracks[..n][m] == tracks[1..][..n - 1][m - 1] { }
  }

  /** A stop found in the remaining tracks, seen from the whole loop after the
      first track wrote `head`. */
  lemma ShiftedStop(tracks: seq<TrackGroup>, info: map<AcqId, Acquisition>, allow: seq<int>,
                    check: CoverageCheck, id: AcqId, head: seq<seq<string>>, restLog: seq<seq<string>>, k: nat, j: int)
    requires k + 1 < |tracks|
    requires TrackStopsAt(tracks[1..], info, allow, check, id, restLog, k, j)
    requires tracks[k + 1] == tracks[1..][k]
    requires ExpectedLog(tracks[..k + 1], allow, check) == head + ExpectedLog(tracks[1..][..k], allow, check)
    requires TracksIndexed(tracks[..k + 1], info, allow, check)
    ensures TrackStopsAt(tracks, info, allow, check, id, head + restLog, k + 1, j)
  {
    var before := ExpectedLog(tracks[1..][..k], allow, check);
    assert (head + restLog)[|head + before|..] == restLog[|before|..];
  }

  /** A track outside a non-empty allow-list contributes no report row. */
  lemma {:induction false} SkippedTrackWritesNoRow(tracks: seq<TrackGroup>, allow: seq<int>, check: CoverageCheck)
    requires forall i | 0 <= i < |tracks| :: !TrackAllowed(allow, tracks[i].track)
    ensures ExpectedLog(tracks, allow, check) == []
    ensures EvaluatedCount(tracks, allow) == 0
  {
    if |tracks| > 0 {
      SkippedTrackWritesNoRow(tracks[1..], allow, check);
    }
  }

  // ---------------------------------------------------------------------------
  // The track keys of the selection.

  /** Every allowed track gets a key, even with no date selected; no other track does. */
  lemma {:induction false} SelectedTracksAreAllowedTracks(tracks: seq<TrackGroup>, info: map<AcqId, Acquisition>,
                                                          allow: seq<int>, check: CoverageCheck)
    ensures var run := SelectTracks(tracks, info, allow, check);
      run.missing.None? ==> SelectionTracks(run.value) == AllowedTracks(tracks, allow)
  {
    if |tracks| > 0 {
      SelectedTracksAreAllowedTracks(tracks[1..], info, allow, check);
    }
  }

  lemma {:induction false} AllowedTracksEmpty(tracks: seq<TrackGroup>, allow: seq<int>)
    ensures |AllowedTracks(tracks, allow)| == 0 <==>
      forall i | 0 <= i < |tracks| :: !TrackAllowed(allow, tracks[i].track)
  {
    if |tracks| > 0 {
      AllowedTracksEmpty(tracks[1..], allow);
      if !TrackAllowed(allow, tracks[0].track) {
        forall i | 1 <= i < |tracks| ensures tracks[i] == tracks[1..][i - 1] { }
      }
    }
  }

  /** The caller's "nothing selected" early exit fires exactly when every track
      was skipped, or there were no tracks; in particular never under an empty
      allow-list with at least one track. */
  lemma {:induction false} NothingSelectedIffAllSkipped(tracks: seq<TrackGroup>, info: map<AcqId, Acquisition>,
                                     allow: seq<int>, check: CoverageCheck)
    requires SelectTracks(tracks, info, allow, check).missing.None?
    ensures |SelectTracks(tracks, info, allow, check).value| == 0 <==>
      forall i | 0 <= i < |tracks| :: !TrackAllowed(allow, tracks[i].track)
    ensures |allow| == 0 && |tracks| > 0 ==> |SelectTracks(tracks, info, allow, check).value| > 0
  {
    SelectedTracksAreAllowedTracks(tracks, info, allow, check);
    AllowedTracksEmpty(tracks, allow);
    if |allow| == 0 && |tracks| > 0 {
      assert TrackAllowed(allow, tracks[0].track);
    }
  }

  // ---------------------------------------------------------------------------
  // The contents of the selection.

  /** The id the track loop raises on is unindexed and belongs to a selected
      cluster of an allowed track. */
  lemma {:induction false} MissingIdIsNotIndexed(tracks: seq<TrackGroup>, info: map<AcqId, Acquisition>,
                                                 allow: seq<int>, check: CoverageCheck)
    ensures var run := SelectTracks(tracks, info, allow, check);
      run.missing.Some? ==>
        && run.missing.value !in info
        && exists k | 0 <= k < |tracks| ::
             TrackAllowed(allow, tracks[k].track) && InSelectedCluster(tracks[k].track, tracks[k].clusters, check, run.missing.value)
  {
    if |tracks| > 0 {
      var t := tracks[0];
      var run := SelectTracks(tracks, info, allow, check);
      MissingIdIsNotIndexedInDates(t.track, t.clusters, info, check);
      MissingIdIsNotIndexed(tracks[1..], info, allow, check);
      if run.missing.Some? {
        if TrackAllowed(allow, t.track) && SelectDates(t.track, t.clusters, info, check).missing.Some? {
          assert TrackAllowed(allow, tracks[0].track) && InSelectedCluster(t.track, t.clusters, check, run.missing.value);
        } else {
          var k :| 0 <= k < |tracks[1..]| && TrackAllowed(allow, tracks[1..][k].track)
            && InSelectedCluster(tracks[1..][k].track, tracks[1..][k].clusters, check, run.missing.value);
          assert tracks[k + 1] == tracks[1..][k];
        }
      }
    }
  }

  /** The id the date loop raises on is unindexed and belongs to a selected cluster. */
  lemma {:induction false} MissingIdIsNotIndexedInDates(track: int, clusters: seq<Cluster>,
                                                        info: map<AcqId, Acquisition>, check: CoverageCheck)
    ensures var run := SelectDates(track, clusters, info, check);
      run.missing.Some? ==> run.missing.value !in info && InSelectedCluster(track, clusters, check, run.missing.value)
  {
    var run := SelectDates(track, clusters, info, check);
    DateLogIsClusterRows(track, clusters, info, check);
    if run.missing.Some? {
      var j :| StopsAt(track, clusters, info, check, run.missing.value, run.log, j);
    }
  }

  /** The dates kept for a track are the selected ones, in evaluation order. */
  lemma {:induction false} KeptDatesAreSelectedDates(track: int, clusters: seq<Cluster>,
                                                     info: map<AcqId, Acquisition>, check: CoverageCheck)
    ensures var run := SelectDates(track, clusters, info, check);
      run.missing.None? ==> SelectionDates(run.value) == SelectedDates(track, clusters, check)
  {
    if |clusters| > 0 {
      KeptDatesAreSelectedDates(track, clusters[1..], info, check);
    }
  }

  lemma {:induction false} FindDateAbsent(sel: seq<DateSelection>, date: DateKey)
    requires date !in SelectionDates(sel)
    ensures FindDate(sel, date) == None
  {
    if |sel| > 0 {
      assert SelectionDates(sel) == [sel[0].date] + SelectionDates(sel[1..]);
      FindDateAbsent(sel[1..], date);
    }
  }

  lemma {:induction false} SelectedDatesWithin(track: int, clusters: seq<Cluster>, check: CoverageCheck, date: DateKey)
    requires date !in DateKeys(clusters)
    ensures date !in SelectedDates(track, clusters, check)
  {
    if |clusters| > 0 {
      assert DateKeys(clusters)[1..] == DateKeys(clusters[1..]);
      SelectedDatesWithin(track, clusters[1..], check, date);
    }
  }

  /**
    For a selected (track, date) the track's inner map holds exactly that
    cluster's acquisitions, looked up in `acq_info`, in the cluster's order; a
    rejected date is absent, and so is any date the track does not have.
  */
  lemma {:induction false} DateSelectionContents(track: int, clusters: seq<Cluster>,
                                                 info: map<AcqId, Acquisition>, check: CoverageCheck, date: DateKey)
    requires Distinct(DateKeys(clusters))
    requires SelectDates(track, clusters, info, check).missing.None?
    ensures var found := FindDate(SelectDates(track, clusters, info, check).value, date);
      && (date !in DateKeys(clusters) ==> found == None)
      && (forall j | 0 <= j < |clusters| && clusters[j].date == date ::
            if check(track, date, clusters[j].ids).selected
            then LookupAll(clusters[j].ids, info).Success? && found == Some(LookupAll(clusters[j].ids, info).value)
            else found == None)
  {
    var run := SelectDates(track, clusters, info, check);
    if |clusters| > 0 {
      var c := clusters[0];
      var tail := clusters[1..];
      assert DateKeys(clusters) == [c.date] + DateKeys(tail);
      assert Distinct(DateKeys(tail)) by {
        forall a, b | 0 <= a < b < |tail| ensures DateKeys(tail)[a] != DateKeys(tail)[b] {
          assert DateKeys(clusters)[a + 1] != DateKeys(clusters)[b + 1];
        }
      }
      var rest := SelectDates(track, tail, info, check);
      DateSelectionContents(track, tail, info, check, date);
      if c.date == date {
        assert date !in DateKeys(tail) by {
          forall k | 0 <= k < |tail| ensures DateKeys(tail)[k] != date {
            assert DateKeys(clusters)[0] != DateKeys(clusters)[k + 1];
          }
        }
        KeptDatesAreSelectedDates(track, tail, info, check);
        SelectedDatesWithin(track, tail, check, date);
        FindDateAbsent(rest.value, date);
        forall j | 1 <= j < |clusters|
          ensures clusters[j].date != date
        {
          assert DateKeys(clusters)[0] != DateKeys(clusters)[j];
        }
      } else {
        forall j | 0 <= j < |clusters| && clusters[j].date == date
          ensures 1 <= j && clusters[j] == tail[j - 1]
        {
        }
      }
    }
  }

  lemma {:induction false} FindTrackAbsent(sel: seq<TrackSelection>, track: int)
    requires track !in SelectionTracks(sel)
    ensures FindTrack(sel, track) == None
  {
    if |sel| > 0 {
      assert SelectionTracks(sel) == [sel[0].track] + SelectionTracks(sel[1..]);
      FindTrackAbsent(sel[1..], track);
    }
  }

  lemma {:induction false} AllowedTracksWithin(tracks: seq<TrackGroup>, allow: seq<int>, track: int)
    requires track !in TrackKeys(tracks) || !TrackAllowed(allow, track)
    ensures track !in AllowedTracks(tracks, allow)
  {
    if |tracks| > 0 {
      assert TrackKeys(tracks)[1..] == TrackKeys(tracks[1..]);
      AllowedTracksWithin(tracks[1..], allow, track);
    }
  }

  /**
    A track outside a non-empty allow-list, or absent from the grouping, has no
    key in the result; an allowed track's entry is its own date loop's result.
  */
  lemma {:induction false} TrackSelectionContents(tracks: seq<TrackGroup>, info: map<AcqId, Acquisition>,
                                                  allow: seq<int>, check: CoverageCheck, i: nat)
    requires WellFormed(tracks)
    requires SelectTracks(tracks, info, allow, check).missing.None?
    requires i < |tracks|
    ensures var found := FindTrack(SelectTracks(tracks, info, allow, check).value, tracks[i].track);
      if TrackAllowed(allow, tracks[i].track)
      then found == Some(SelectDates(tracks[i].track, tracks[i].clusters, info, check).value)
      else found == None
    decreases |tracks|, 1
  {
    if !TrackAllowed(allow, tracks[i].track) {
      DisallowedTrackNotFound(tracks, info, allow, check, tracks[i].track);
    } else if i == 0 {
      SelectTracksHead(tracks, info, allow, check);
    } else {
      LaterTrackSelection(tracks, info, allow, check, i);
    }
  }

  /** The allowed track at a later index is found through the selection of the
      remaining tracks. */
  lemma {:induction false} LaterTrackSelection(tracks: seq<TrackGroup>, info: map<AcqId, Acquisition>,
                                               allow: seq<int>, check: CoverageCheck, i: nat)
    requires WellFormed(tracks)
    requires SelectTracks(tracks, info, allow, check).missing.None?
    requires 0 < i < |tracks| && TrackAllowed(allow, tracks[i].track)
    ensures FindTrack(SelectTracks(tracks, info, allow, check).value, tracks[i].track)
      == Some(SelectDates(tracks[i].track, tracks[i].clusters, info, check).value)
    decreases |tracks|, 0
  {
    var t := tracks[i];
    assert t == tracks[1..][i - 1];
    WellFormedTail(tracks, i);
    SelectTracksStep(tracks, info, allow, check, t.track);
    TrackSelectionContents(tracks[1..], info, allow, check, i - 1);
    assert FindTrack(SelectTracks(tracks[1..], info, allow, check).value, t.track)
      == Some(SelectDates(t.track, t.clusters, info, check).value);
  }

  /** A track the allow list excludes is not in the selection. */
  lemma DisallowedTrackNotFound(tracks: seq<TrackGroup>, info: map<AcqId, Acquisition>,
                                allow: seq<int>, check: CoverageCheck, k: int)
    requires !TrackAllowed(allow, k)
    requires SelectTracks(tracks, info, allow, check).missing.None?
    ensures FindTrack(SelectTracks(tracks, info, allow, check).value, k) == None
  {
    SelectedTracksAreAllowedTracks(tracks, info, allow, check);
    AllowedTracksWithin(tracks, allow, k);
    FindTrackAbsent(SelectTracks(tracks, info, allow, check).value, k);
  }

  /** The first track, when allowed, is found with its own date selection. */
  lemma SelectTracksHead(tracks: seq<TrackGroup>, info: map<AcqId, Acquisition>,
                         allow: seq<int>, check: CoverageCheck)
    requires |tracks| > 0 && TrackAllowed(allow, tracks[0].track)
    requires SelectTracks(tracks, info, allow, check).missing.None?
    ensures FindTrack(SelectTracks(tracks, info, allow, check).value, tracks[0].track)
      == Some(SelectDates(tracks[0].track, tracks[0].clusters, info, check).value)
  {
  }

  /** Any other track is looked up in the selection of the remaining tracks. */
  lemma SelectTracksStep(tracks: seq<TrackGroup>, info: map<AcqId, Acquisition>,
                         allow: seq<int>, check: CoverageCheck, k: int)
    requires |tracks| > 0 && tracks[0].track != k
    requires SelectTracks(tracks, info, allow, check).missing.None?
    ensures SelectTracks(tracks[1..], info, allow, check).missing.None?
    ensures FindTrack(SelectTracks(tracks, info, allow, check).value, k)
      == FindTrack(SelectTracks(tracks[1..], info, allow, check).value, k)
  {
    if TrackAllowed(allow, tracks[0].track) {
      assert SelectDates(tracks[0].track, tracks[0].clusters, info, check).missing.None?;
    }
  }

  /** Dropping the first track keeps the grouping well formed, and no later
      track shares the first one's key. */
  lemma WellFormedTail(tracks: seq<TrackGroup>, i: nat)
    requires 0 < i < |tracks| && WellFormed(tracks)
    ensures WellFormed(tracks[1..])
    ensures tracks[0].track != tracks[i].track
  {
    assert TrackKeys(tracks)[0] != TrackKeys(tracks)[i];
    var tail := tracks[1..];
    assert TrackKeys(tracks) == [tracks[0].track] + TrackKeys(tail);
    forall a, b | 0 <= a < b < |tail| ensures TrackKeys(tail)[a] != TrackKeys(tail)[b] {
      assert TrackKeys(tracks)[a + 1] != TrackKeys(tracks)[b + 1];
    }
    forall a | 0 <= a < |tail| ensures Distinct(DateKeys(tail[a].clusters)) {
      assert tail[a] == tracks[a + 1];
    }
  }

  lemma {:induction false} TrackSelectionAbsent(tracks: seq<TrackGroup>, info: map<AcqId, Acquisition>,
                             allow: seq<int>, check: CoverageCheck, track: int)
    requires SelectTracks(tracks, info, allow, check).missing.None?
    requires track !in TrackKeys(tracks) || !TrackAllowed(allow, track)
    ensures FindTrack(SelectTracks(tracks, info, allow, check).value, track) == None
  {
    SelectedTracksAreAllowedTracks(tracks, info, allow, check);
    AllowedTracksWithin(tracks, allow, track);
    FindTrackAbsent(SelectTracks(tracks, info, allow, check).value, track);
  }

  // ---------------------------------------------------------------------------
  // The per-AOI bookkeeping of `query_aoi_acquisitions`.

  /** The AOI fields the bookkeeping reads; `priority` is `metadata.priority` when present. */
  datatype Aoi = Aoi(id: string, priority: Option<int>)

  /** The entry `orbit_aoi_data[aoi_id]`. */
  datatype AoiData = AoiData(aoiId: string, priority: int, selection: seq<TrackSelection>)

  /** The loop over AOIs: an AOI whose selection has no track is skipped
      ("Nothing selected"), later AOIs with the same id overwrite earlier ones,
      and the priority defaults to 0. An empty result is the run-wide
      "NOTHING selected" exit. */
  function CollectAoiData(results: seq<(Aoi, seq<TrackSelection>)>): (m: map<string, AoiData>)
    ensures forall id :: id in m <==> exists k | 0 <= k < |results| :: results[k].0.id == id && |results[k].1| > 0
  {
    if |results| == 0 then map[]
    else
      var prefix := results[..|results| - 1];
      var last := results[|results| - 1];
      var m := CollectAoiData(prefix);
      assert forall k | 0 <= k < |prefix| :: prefix[k] == results[k];
      if |last.1| == 0 then m
      else m[last.0.id := AoiData(last.0.id, last.0.priority.GetOr(0), last.1)]
  }

  /** The entry kept for an AOI id comes from the last AOI with that id and a
      non-empty selection, with priority 0 when the AOI has none. */
  lemma {:induction false} CollectAoiDataLastWins(results: seq<(Aoi, seq<TrackSelection>)>, k: nat)
    requires k < |results| && |results[k].1| > 0
    requires forall l | k < l < |results| :: results[l].0.id != results[k].0.id || |results[l].1| == 0
    ensures var id := results[k].0.id;
      id in CollectAoiData(results)
      && CollectAoiData(results)[id] == AoiData(id, results[k].0.priority.GetOr(0), results[k].1)
  {
    var prefix := results[..|results| - 1];
    if k < |results| - 1 {
      assert prefix[k] == results[k];
      CollectAoiDataLastWins(prefix, k);
    }
  }
}

=== FILE: sling.dfy ===
/**
  The bookkeeping of sling_standard_product.py: the `acq_info` dictionary
  `resolve_source` builds from the master and slave id lists, the two id
  strings `get_id_hash` feeds to its digest, `check_all_job_completed`, and
  the dedup-aware status resolution of `get_job_status`.
*/
module Sling {
  import opened Common
  import opened Text


  const Master: string := "master"
  const Slave: string := "slave"

  /** The value `get_acq_object` stores under the key `acqId`. */
  datatype Entry = Entry(acqId: AcqId, acqType: string)

  /** The ordered dictionary `acq_info`: its entries in insertion order, each
      stored under its own `acqId`. */
  type AcqInfo = seq<Entry>

  /** `acq_info.keys()` in iteration order. */
  function Ids(info: AcqInfo): (ids: seq<AcqId>)
    ensures |ids| == |info|
    ensures forall i | 0 <= i < |info| :: ids[i] == info[i].acqId
  {
    if |info| == 0 then [] else [info[0].acqId] + Ids(info[1..])
  }

  /** `acq_info[id]['acq_type']`, or `None` when `id` is not a key. */
  function TypeOf(info: AcqInfo, id: AcqId): (t: Option<string>)
    ensures t.Some? ==> id in Ids(info)
  {
    if |info| == 0 then None
    else if info[0].acqId == id then Some(info[0].acqType)
    else TypeOf(info[1..], id)
  }

  /** `acq_info[e.acqId] = e`: an existing key keeps its place and takes the
      new value; a new key goes last. */
  function Put(info: AcqInfo, e: Entry): (r: AcqInfo)
    ensures Ids(r) == if e.acqId in Ids(info) then Ids(info) else Ids(info) + [e.acqId]
    ensures forall id :: TypeOf(r, id) == if id == e.acqId then Some(e.acqType) else TypeOf(info, id)
  {
    if |info| == 0 then [e]
    else if info[0].acqId == e.acqId then [e] + info[1..]
    else
      assert Ids(info) == [info[0].acqId] + Ids(info[1..]);
      [info[0]] + Put(info[1..], e)
  }

  /** The keys after inserting `ids` in order into a dictionary whose keys
      are `keys`: each id not yet present is added at the end. */
  function AppendNew(keys: seq<AcqId>, ids: seq<AcqId>): (r: seq<AcqId>)
    ensures Distinct(keys) ==> Distinct(r)
    ensures forall x :: x in r <==> x in keys || x in ids
    ensures |keys| <= |r| && r[..|keys|] == keys
    decreases |ids|
  {
    if |ids| == 0 then keys
    else
      var next := if ids[0] in keys then keys else keys + [ids[0]];
      var r := AppendNew(next, ids[1..]);
      assert r[..|keys|] == r[..|next|][..|keys|];
      r
  }

  lemma {:induction false} AppendNewConcat(keys: seq<AcqId>, a: seq<AcqId>, b: seq<AcqId>)
    ensures AppendNew(keys, a + b) == AppendNew(AppendNew(keys, a), b)
    decreases |a|
  {
    if |a| > 0 {
      assert (a + b)[0] == a[0] && (a + b)[1..] == a[1..] + b;
      var next := if a[0] in keys then keys else keys + [a[0]];
      AppendNewConcat(next, a[1..], b);
    } else {
      assert a + b == b;
    }
  }

  /** The loop `for acq in ids: acq_info[acq] = get_acq_object(acq, t)`. */
  function PutAll(info: AcqInfo, ids: seq<AcqId>, t: string): (r: AcqInfo)
    ensures Ids(r) == AppendNew(Ids(info), ids)
    ensures forall id :: TypeOf(r, id) == if id in ids then Some(t) else TypeOf(info, id)
    decreases |ids|
  {
    if |ids| == 0 then info
    else
      var next := Put(info, Entry(ids[0], t));
      var r := PutAll(next, ids[1..], t);
      assert forall id :: id in ids <==> id == ids[0] || id in ids[1..];
      r
  }

  /** `[i.strip() for i in text.split()]`: the white-space separated ids. */
  function AcqIds(text: string): (ids: seq<AcqId>)
    ensures ids == SplitWhitespace(text)
  {
    var words := SplitWhitespace(text);
    StripAllTrimmed(words);
    StripAll(words)
  }

  /**
    `acq_info` as `resolve_source` builds it from the `master_acquisitions`
    and `slave_acquisitions` strings: the keys are every id once, in order of
    first appearance with the masters first; no key is empty or holds white
    space; an id listed on both sides is typed "slave", the later write.
  */
  function BuildAcqInfo(masterText: string, slaveText: string): (info: AcqInfo)
    ensures Distinct(Ids(info))
    ensures Ids(info) == AppendNew([], SplitWhitespace(masterText) + SplitWhitespace(slaveText))
    ensures forall i | 0 <= i < |info| :: IsWord(info[i].acqId)
    ensures forall id ::
              TypeOf(info, id) == if id in SplitWhitespace(slaveText) then Some(Slave)
                                  else if id in SplitWhitespace(masterText) then Some(Master)
                                  else None
  {
    var masters := AcqIds(masterText);
    var slaves := AcqIds(slaveText);
    MastersThenSlaves(masters, slaves);
    PutAll(PutAll([], masters, Master), slaves, Slave)
  }

  /** The two insertion loops of `resolve_source`, on the id lists. */
  lemma MastersThenSlaves(masters: seq<AcqId>, slaves: seq<AcqId>)
    requires forall k | 0 <= k < |masters| :: IsWord(masters[k])
    requires forall k | 0 <= k < |slaves| :: IsWord(slaves[k])
    ensures var info := PutAll(PutAll([], masters, Master), slaves, Slave);
      && Distinct(Ids(info))
      && Ids(info) == AppendNew([], masters + slaves)
      && (forall i | 0 <= i < |info| :: IsWord(info[i].acqId))
      && (forall id :: TypeOf(info, id) == if id in slaves then Some(Slave) else if id in masters then Some(Master) else None)
  {
    var info := PutAll(PutAll([], masters, Master), slaves, Slave);
    var ids := masters + slaves;
    InsertionLoops(masters, slaves);
    assert forall x | x in Ids(info) :: x in ids;
    assert forall k | 0 <= k < |ids| :: IsWord(ids[k]) by {
      forall k | 0 <= k < |ids| ensures IsWord(ids[k]) {
        if k < |masters| {
          assert ids[k] == masters[k];
        } else {
          assert ids[k] == slaves[k - |masters|];
        }
      }
    }
    AcqInfoKeysAreWords(info, ids);
  }

  /** The keys and types the two loops leave, whatever the ids. */
  lemma InsertionLoops(masters: seq<AcqId>, slaves: seq<AcqId>)
    ensures var info := PutAll(PutAll([], masters, Master), slaves, Slave);
      && Distinct(Ids(info))
      && Ids(info) == AppendNew([], masters + slaves)
      && (forall id :: TypeOf(info, id) == if id in slaves then Some(Slave) else if id in masters then Some(Master) else None)
  {
    var first := PutAll([], masters, Master);
    var info := PutAll(first, slaves, Slave);
    assert Ids(info) == AppendNew([], masters + slaves) by {
      assert Ids([]) == [];
      AppendNewConcat([], masters, slaves);
    }
    assert Distinct<AcqId>([]);
    assert forall id :: TypeOf([], id) == None;
  }

  lemma AcqInfoKeysAreWords(info: AcqInfo, ids: seq<AcqId>)
    requires forall x | x in Ids(info) :: x in ids
    requires forall k | 0 <= k < |ids| :: IsWord(ids[k])
    ensures forall i | 0 <= i < |info| :: IsWord(info[i].acqId)
  {
    forall i | 0 <= i < |info| ensures IsWord(info[i].acqId) {
      var x := Ids(info)[i];
      assert x in Ids(info);
      var k :| 0 <= k < |ids| && ids[k] == x;
    }
  }

  // ---------------------------------------------------------------------------
  // get_id_hash

  /** The keys typed `t`, in iteration order. */
  function OfType(info: AcqInfo, t: string): (ids: seq<AcqId>)
    ensures forall x | x in ids :: x in Ids(info)
    ensures (forall i | 0 <= i < |info| :: IsWord(info[i].acqId)) ==> forall k | 0 <= k < |ids| :: IsWord(ids[k])
    ensures (forall i | 0 <= i < |info| :: |info[i].acqId| > 0) ==> forall k | 0 <= k < |ids| :: |ids[k]| > 0
  {
    if |info| == 0 then []
    else
      var last := info[|info| - 1];
      OfType(info[..|info| - 1], t) + (if last.acqType == t then [last.acqId] else [])
  }

  /** The loop of `get_id_hash` for one type: each key of that type is added
      to the string, preceded by a space unless the string is still empty. */
  function IdsStr(info: AcqInfo, t: string): (s: string)
    ensures OfType(info, t) == [] ==> s == ""
  {
    if |info| == 0 then ""
    else
      var acc := IdsStr(info[..|info| - 1], t);
      var last := info[|info| - 1];
      if last.acqType != t then acc
      else if acc == "" then last.acqId
      else acc + " " + last.acqId
  }

  lemma {:induction false} JoinSnoc(parts: seq<string>, x: string, sep: string)
    requires |parts| > 0
    ensures Join(parts + [x], sep) == Join(parts, sep) + sep + x
  {
    if |parts| > 1 {
      assert (parts + [x])[1..] == parts[1..] + [x];
      JoinSnoc(parts[1..], x, sep);
    }
  }

  lemma {:induction false} JoinEmptyIffNone(parts: seq<string>, sep: string)
    requires forall i | 0 <= i < |parts| :: |parts[i]| > 0
    ensures Join(parts, sep) == "" <==> |parts| == 0
  {
    if |parts| > 0 {
      JoinFirstLast(parts, sep);
    }
  }

  /** With no empty key, the id string is the single-space join of the keys of that type. */
  lemma {:induction false} IdsStrIsJoin(info: AcqInfo, t: string)
    requires forall i | 0 <= i < |info| :: |info[i].acqId| > 0
    ensures IdsStr(info, t) == Join(OfType(info, t), " ")
  {
    if |info| > 0 {
      var init := info[..|info| - 1];
      var last := info[|info| - 1];
      assert forall i | 0 <= i < |init| :: init[i] == info[i];
      IdsStrIsJoin(init, t);
      var prev := OfType(init, t);
      JoinEmptyIffNone(prev, " ");
      if last.acqType == t {
        if |prev| == 0 {
          assert prev + [last.acqId] == [last.acqId];
        } else {
          JoinSnoc(prev, last.acqId, " ");
        }
      } else {
        assert OfType(info, t) == prev;
      }
    }
  }

  /** With keys that are non-empty and free of white space, `split()` of the
      id string gives back exactly the keys of that type, and the string has
      no leading or trailing space. */
  lemma IdsStrSplits(info: AcqInfo, t: string)
    requires forall i | 0 <= i < |info| :: IsWord(info[i].acqId)
    ensures SplitWhitespace(IdsStr(info, t)) == OfType(info, t)
    ensures Trimmed(IdsStr(info, t))
  {
    var ids := OfType(info, t);
    IdsStrIsJoin(info, t);
    SplitWhitespaceJoin(ids);
    if |ids| > 0 {
      JoinFirstLast(ids, " ");
    }
  }

  /** A key is in the id string of type `t` exactly when its entry has that type. */
  lemma {:induction false} OfTypeMembers(info: AcqInfo, t: string, x: AcqId)
    requires Distinct(Ids(info))
    ensures x in OfType(info, t) <==> TypeOf(info, x) == Some(t)
  {
    if |info| > 0 {
      var init := info[..|info| - 1];
      var last := info[|info| - 1];
      assert Distinct(Ids(init)) && last.acqId !in Ids(init) by {
        assert forall i | 0 <= i < |init| :: Ids(init)[i] == Ids(info)[i];
        assert Ids(info)[|info| - 1] == last.acqId;
      }
      assert TypeOf(info, x) == if TypeOf(init, x).Some? then TypeOf(init, x)
                                else if x == last.acqId then Some(last.acqType) else None by {
        assert info == init + [last];
        TypeOfSnoc(init, last, x);
      }
      assert x in OfType(info, t) <==> x in OfType(init, t) || (last.acqType == t && x == last.acqId);
      if x == last.acqId {
        assert TypeOf(init, x) == None;
        assert x !in OfType(init, t);
      } else {
        OfTypeMembers(init, t, x);
      }
    }
  }

  lemma {:induction false} TypeOfSnoc(init: AcqInfo, last: Entry, x: AcqId)
    ensures TypeOf(init + [last], x) ==
      if TypeOf(init, x).Some? then TypeOf(init, x)
      else if x == last.acqId then Some(last.acqType) else None
  {
    if |init| > 0 {
      assert (init + [last])[1..] == init[1..] + [last];
      TypeOfSnoc(init[1..], last, x);
    }
  }

  /**
    On `acq_info` as `resolve_source` builds it, `master_ids_str` lists, space
    separated, exactly the master ids that are not also slave ids, and
    `slave_ids_str` exactly the slave ids.
  */
  lemma AcqInfoIdStrings(masterText: string, slaveText: string)
    ensures var info := BuildAcqInfo(masterText, slaveText);
      && (forall x :: x in SplitWhitespace(IdsStr(info, Master)) <==>
            x in SplitWhitespace(masterText) && x !in SplitWhitespace(slaveText))
      && (forall x :: x in SplitWhitespace(IdsStr(info, Slave)) <==> x in SplitWhitespace(slaveText))
  {
    var info := BuildAcqInfo(masterText, slaveText);
    IdsStrSplits(info, Master);
    IdsStrSplits(info, Slave);
    forall x ensures x in OfType(info, Master) <==> TypeOf(info, x) == Some(Master) {
      OfTypeMembers(info, Master, x);
    }
    forall x ensures x in OfType(info, Slave) <==> TypeOf(info, x) == Some(Slave) {
      OfTypeMembers(info, Slave, x);
    }
  }

  /** `job_priority` as the context carries it. The selector copies
      `ctx['job_priority']` into the job unconverted, so it is a JSON integer
      or a JSON string, and `json.dumps` writes `5` and `"5"` differently. */
  datatype Priority = IntPriority(n: int) | TextPriority(text: string)

  /** The JSON list `get_id_hash` encodes and digests. */
  datatype HashInput = HashInput(priority: Priority, masterIds: string, slaveIds: string, demType: string)

  function HashInputOf(info: AcqInfo, priority: Priority, demType: string): (h: HashInput)
    ensures h.priority == priority && h.demType == demType
    ensures (forall i | 0 <= i < |info| :: |info[i].acqId| > 0) ==>
      h.masterIds == Join(OfType(info, Master), " ") && h.slaveIds == Join(OfType(info, Slave), " ")
  {
    IdsStrIsJoin2(info);
    HashInput(priority, IdsStr(info, Master), IdsStr(info, Slave), demType)
  }

  lemma IdsStrIsJoin2(info: AcqInfo)
    ensures (forall i | 0 <= i < |info| :: |info[i].acqId| > 0) ==>
      IdsStr(info, Master) == Join(OfType(info, Master), " ") && IdsStr(info, Slave) == Join(OfType(info, Slave), " ")
  {
    if forall i | 0 <= i < |info| :: |info[i].acqId| > 0 {
      IdsStrIsJoin(info, Master);
      IdsStrIsJoin(info, Slave);
    }
  }

  /** `get_id_hash`, with the md5-of-JSON step as the parameter `digest`. */
  function IdHash(info: AcqInfo, priority: Priority, demType: string, digest: HashInput -> string): (h: string)
    ensures (forall i | 0 <= i < |info| :: |info[i].acqId| > 0) ==>
      h == digest(HashInput(priority, Join(OfType(info, Master), " "), Join(OfType(info, Slave), " "), demType))
  {
    digest(HashInputOf(info, priority, demType))
  }

  /** The hash depends only on the priority, the DEM type and the master and
      slave ids in order: entries of other types and their placement do not matter. */
  lemma IdHashDependsOnTypedIds(a: AcqInfo, b: AcqInfo, priority: Priority, demType: string, digest: HashInput -> string)
    requires forall i | 0 <= i < |a| :: |a[i].acqId| > 0
    requires forall i | 0 <= i < |b| :: |b[i].acqId| > 0
    requires OfType(a, Master) == OfType(b, Master) && OfType(a, Slave) == OfType(b, Slave)
    ensures IdHash(a, priority, demType, digest) == IdHash(b, priority, demType, digest)
  {
  }

  // ---------------------------------------------------------------------------
  // check_all_job_completed

  /** The fields of an `acq_info` value that `check_all_job_completed` reads. */
  datatype JobEntry = JobEntry(acqId: AcqId, localized: bool, jobStatus: string, jobId: string)

  predicate Done(e: JobEntry) {
    e.localized || e.jobStatus == "job-completed"
  }

  /** `check_all_job_completed`: stops at the first entry neither localized nor completed. */
  method CheckAllJobCompleted(info: seq<JobEntry>) returns (allDone: bool)
    ensures allDone <==> forall i | 0 <= i < |info| :: Done(info[i])
  {
    allDone := true;
    for i := 0 to |info|
      invariant allDone
      invariant forall k | 0 <= k < i :: Done(info[k])
    {
      if !info[i].localized {
        if !(info[i].jobStatus == "job-completed") {
          allDone := false;
          break;
        }
      }
    }
  }

  // ---------------------------------------------------------------------------
  // get_job_status

  /** The `_source` of a job document in the jobs index. */
  datatype JobDoc = JobDoc(status: string, dedupJob: Option<string>)

  /** Where `get_job_status` raises: the job never shows up in the index
      (`check_ES_status` gives up with `RuntimeError`), a deduped job has no
      `dedup_job` (`KeyError`), or the job it names has no hit (`query_es`
      raises `ValueError`). */
  datatype StatusError = NotIndexed(jobId: string) | NoDedupJob(jobId: string) | DedupJobNotFound(jobId: string)

  const Deduped: string := "job-deduped"

  /** `get_job_status` over the jobs index `jobs`: the job's own status and id,
      or for a deduped job the status and id of the job it was deduped against. */
  function GetJobStatus(jobs: map<string, JobDoc>, jobId: string): (r: Result<(string, string), StatusError>)
    ensures jobId !in jobs ==> r == Failure(NotIndexed(jobId))
    ensures jobId in jobs && jobs[jobId].status != Deduped ==> r == Success((jobs[jobId].status, jobId))
    ensures jobId in jobs && jobs[jobId].status == Deduped && jobs[jobId].dedupJob.None? ==>
      r == Failure(NoDedupJob(jobId))
    ensures forall o | jobId in jobs && jobs[jobId].status == Deduped && jobs[jobId].dedupJob == Some(o) ::
      r == if o in jobs then Success((jobs[o].status, o)) else Failure(DedupJobNotFound(o))
    ensures r.Success? && r.value.1 != jobId ==>
      && jobs[jobId].status == Deduped
      && jobs[jobId].dedupJob == Some(r.value.1)
      && r.value.1 in jobs && r.value.0 == jobs[r.value.1].status
    ensures r.Failure? ==> r.error.jobId == jobId || jobs[jobId].dedupJob == Some(r.error.jobId)
  {
    if jobId !in jobs then Failure(NotIndexed(jobId))
    else
      var doc := jobs[jobId];
      if doc.status != Deduped then Success((doc.status, jobId))
      else match doc.dedupJob
        case None => Failure(NoDedupJob(jobId))
        case Some(orig) =>
          if orig !in jobs then Failure(DedupJobNotFound(orig))
          else Success((jobs[orig].status, orig))
  }

  /** A resolved status other than "job-deduped" is settled: asking again
      about the returned job gives the same answer. A "job-deduped" answer
      only comes from a job deduped against another deduped job. */
  lemma GetJobStatusSettles(jobs: map<string, JobDoc>, jobId: string)
    ensures var r := GetJobStatus(jobs, jobId);
      r.Success? && r.value.0 != Deduped ==> GetJobStatus(jobs, r.value.1) == r
    ensures var r := GetJobStatus(jobs, jobId);
      r.Success? && r.value.0 == Deduped ==>
        jobs[jobId].status == Deduped && jobs[r.value.1].status == Deduped
  {
  }
}

=== FILE: text.dfy ===
/**
  The Python string operations the selector and the sling step apply to
  context values and acquisition ids: `str.isspace`, `str.strip()`,
  `str.split(',')`, `str.split()`, `sep.join(...)`, `int(str)` and the
  ASCII part of `str.lower()`. White space and integer literals follow
  Python 3, which the selector runs under; `int()` skips a narrower set of
  white space than `strip()` (`IsIntSpace`).
*/
module Text {
  import opened Common

  /** Python's `str.isspace()` on one character: the Unicode white-space set. */
  predicate IsSpace(c: char) {
    || ('\t' <= c <= '\r')
    || ('\U{1C}' <= c <= ' ')
    || c == '\U{85}' || c == '\U{A0}' || c == '\U{1680}'
    || ('\U{2000}' <= c <= '\U{200A}')
    || c == '\U{2028}' || c == '\U{2029}' || c == '\U{202F}' || c == '\U{205F}'
    || c == '\U{3000}'
  }

  predicate AllSpace(s: string) {
    forall i | 0 <= i < |s| :: IsSpace(s[i])
  }

  predicate NoSpace(s: string) {
    forall i | 0 <= i < |s| :: !IsSpace(s[i])
  }

  /** Nothing for `strip()` to remove: empty, or non-space at both ends. */
  predicate Trimmed(s: string) {
    |s| == 0 || (!IsSpace(s[0]) && !IsSpace(s[|s| - 1]))
  }

  /** `s` is `r` with white space (possibly none) added on both sides. */
  predicate PaddedBy(s: string, r: string) {
    exists k | 0 <= k <= |s| - |r| ::
      s[k..k + |r|] == r && AllSpace(s[..k]) && AllSpace(s[k + |r|..])
  }

  /** Length of the white-space run that starts `s`. */
  function CountLeading(s: string): (n: nat)
    ensures n <= |s|
    ensures AllSpace(s[..n])
    ensures n < |s| ==> !IsSpace(s[n])
  {
    if |s| == 0 || !IsSpace(s[0]) then 0 else 1 + CountLeading(s[1..])
  }

  /** Length of the white-space run that ends `s`. */
  function CountTrailing(s: string): (n: nat)
    ensures n <= |s|
    ensures AllSpace(s[|s| - n..])
    ensures n < |s| ==> !IsSpace(s[|s| - 1 - n])
  {
    if |s| == 0 || !IsSpace(s[|s| - 1]) then 0
    else
      var m := CountTrailing(s[..|s| - 1]);
      TrailingStep(s, m);
      1 + m
  }

  /** A white-space run ending `s[..|s| - 1]` grows by one when `s` ends in white space. */
  lemma TrailingStep(s: string, m: nat)
    requires |s| > 0 && IsSpace(s[|s| - 1]) && m <= |s| - 1
    requires AllSpace(s[..|s| - 1][|s| - 1 - m..])
    requires m < |s| - 1 ==> !IsSpace(s[..|s| - 1][|s| - 2 - m])
    ensures AllSpace(s[|s| - 1 - m..])
    ensures m + 1 < |s| ==> !IsSpace(s[|s| - 2 - m])
  {
    var u, v := s[|s| - 1 - m..], s[..|s| - 1][|s| - 1 - m..];
    assert u == v + [s[|s| - 1]];
    forall i | 0 <= i < |u| ensures IsSpace(u[i]) {
      if i < m {
        assert u[i] == v[i];
      }
    }
    if m + 1 < |s| {
      assert s[|s| - 2 - m] == s[..|s| - 1][|s| - 2 - m];
    }
  }

  /** Python's `str.strip()` with no argument. */
  function Strip(s: string): (r: string)
    ensures Trimmed(r)
    ensures PaddedBy(s, r)
    ensures forall i | 0 <= i < |r| :: r[i] in s
  {
    var k := CountLeading(s);
    var t := s[k..];
    var n := CountTrailing(t);
    assert t[|t| - n..] == s[|s| - n..];
    assert n < |t| ==> t[|t| - 1 - n] == s[|s| - 1 - n];
    StripShape(s, k, n);
    s[k..|s| - n]
  }

  /** Cutting a white-space run from each end leaves a trimmed core. */
  lemma StripShape(s: string, k: nat, n: nat)
    requires k + n <= |s|
    requires AllSpace(s[..k]) && AllSpace(s[|s| - n..])
    requires k + n < |s| ==> !IsSpace(s[k]) && !IsSpace(s[|s| - 1 - n])
    ensures var r := s[k..|s| - n];
      && Trimmed(r) && PaddedBy(s, r) && forall i | 0 <= i < |r| :: r[i] in s
  {
    var r := s[k..|s| - n];
    assert s[k..k + |r|] == r && s[k + |r|..] == s[|s| - n..];
    assert forall i | 0 <= i < |r| :: r[i] == s[k + i];
  }

  lemma {:induction false} CountLeadingIs(s: string, n: nat)
    requires n <= |s| && AllSpace(s[..n])
    requires n < |s| ==> !IsSpace(s[n])
    ensures CountLeading(s) == n
    decreases n
  {
    if n > 0 {
      assert s[1..][..n - 1] == s[..n][1..];
      CountLeadingIs(s[1..], n - 1);
    }
  }

  lemma {:induction false} CountTrailingIs(s: string, n: nat)
    requires n <= |s| && AllSpace(s[|s| - n..])
    requires n < |s| ==> !IsSpace(s[|s| - 1 - n])
    ensures CountTrailing(s) == n
    decreases n
  {
    if n > 0 {
      var u := s[..|s| - 1];
      var v := u[|u| - (n - 1)..];
      forall i | 0 <= i < |v|
        ensures IsSpace(v[i])
      {
        assert v[i] == s[|s| - n..][i];
      }
      assert |s| - 1 - n >= 0 ==> u[|u| - 1 - (n - 1)] == s[|s| - 1 - n];
      CountTrailingIs(u, n - 1);
    }
  }

  /** `strip()` returns exactly the trimmed core of any white-space padding. */
  lemma StripOfPadded(p: string, r: string, q: string)
    requires AllSpace(p) && AllSpace(q) && Trimmed(r)
    ensures Strip(p + r + q) == r
  {
    var s := p + r + q;
    if |r| == 0 {
      assert s[..|s|] == s;
      CountLeadingIs(s, |s|);
      assert s[|s|..] == [];
    } else {
      assert s[..|p|] == p;
      CountLeadingIs(s, |p|);
      var t := s[|p|..];
      assert t == r + q;
      assert t[|t| - |q|..] == q;
      CountTrailingIs(t, |q|);
      assert t[..|t| - |q|] == r;
    }
  }

  /** Stripping twice is stripping once. */
  lemma StripIdempotent(s: string)
    ensures Strip(Strip(s)) == Strip(s)
  {
    var r := Strip(s);
    assert "" + r + "" == r;
    StripOfPadded("", r, "");
  }

  /** Python's `sep.join(parts)`. */
  function Join(parts: seq<string>, sep: string): string
  {
    if |parts| == 0 then ""
    else if |parts| == 1 then parts[0]
    else parts[0] + sep + Join(parts[1..], sep)
  }

  lemma {:induction false} JoinFirstLast(parts: seq<string>, sep: string)
    requires |parts| > 0
    requires forall i | 0 <= i < |parts| :: |parts[i]| > 0
    ensures var j := Join(parts, sep);
      |j| > 0 && j[0] == parts[0][0] && j[|j| - 1] == parts[|parts| - 1][|parts[|parts| - 1]| - 1]
  {
    if |parts| > 1 {
      var tail := Join(parts[1..], sep);
      assert parts[1..][|parts[1..]| - 1] == parts[|parts| - 1];
      JoinFirstLast(parts[1..], sep);
      assert Join(parts, sep) == parts[0] + sep + tail;
    }
  }

  /** Nonempty parts whose outer ends are not white space join, with any
      separator, into a string `strip()` leaves alone. */
  lemma JoinStripped(parts: seq<string>, sep: string)
    requires |parts| > 0
    requires forall i | 0 <= i < |parts| :: |parts[i]| > 0
    requires Trimmed(parts[0]) && Trimmed(parts[|parts| - 1])
    ensures Strip(Join(parts, sep)) == Join(parts, sep)
  {
    var s := Join(parts, sep);
    JoinFirstLast(parts, sep);
    assert Trimmed(s);
    assert "" + s + "" == s;
    StripOfPadded("", s, "");
  }

  lemma StripEmpty()
    ensures Strip("") == ""
  {
    assert "" + "" + "" == "";
    StripOfPadded("", "", "");
  }

  /** `[p.strip() for p in parts]`. */
  function StripAll(parts: seq<string>): (r: seq<string>)
    ensures |r| == |parts|
    ensures forall i | 0 <= i < |parts| :: r[i] == Strip(parts[i])
  {
    seq(|parts|, i requires 0 <= i < |parts| => Strip(parts[i]))
  }

  /** Stripping parts that are already trimmed changes nothing. */
  lemma StripAllTrimmed(parts: seq<string>)
    requires forall i | 0 <= i < |parts| :: Trimmed(parts[i])
    ensures StripAll(parts) == parts
  {
    forall i | 0 <= i < |parts| ensures Strip(parts[i]) == parts[i] {
      StripTrimmed(parts[i]);
    }
  }

  lemma StripTrimmed(s: string)
    requires Trimmed(s)
    ensures Strip(s) == s
  {
    assert "" + s + "" == s;
    StripOfPadded("", s, "");
  }

  /** Python's `s.split(sep)` for a one-character separator. */
  function Split(s: string, sep: char): (parts: seq<string>)
    ensures |parts| >= 1
    ensures forall i | 0 <= i < |parts| :: sep !in parts[i]
    ensures Join(parts, [sep]) == s
  {
    if |s| == 0 then [""]
    else
      var rest := Split(s[1..], sep);
      assert s == [s[0]] + s[1..];
      if s[0] == sep then
        JoinEmptyHead(rest, [sep]);
        [""] + rest
      else
        JoinExtendHead(s[0], rest, [sep]);
        [[s[0]] + rest[0]] + rest[1..]
  }

  /** An empty first part contributes only its separator. */
  lemma JoinEmptyHead(parts: seq<string>, sep: string)
    requires |parts| >= 1
    ensures Join([""] + parts, sep) == sep + Join(parts, sep)
  {
    assert ([""] + parts)[1..] == parts;
  }

  /** A character put in front of the first part is put in front of the join. */
  lemma JoinExtendHead(c: char, parts: seq<string>, sep: string)
    requires |parts| >= 1
    ensures Join([[c] + parts[0]] + parts[1..], sep) == [c] + Join(parts, sep)
  {
    var ext := [[c] + parts[0]] + parts[1..];
    assert ext[1..] == parts[1..];
    if |parts| > 1 {
      ConcatAssoc([c], parts[0], sep + Join(parts[1..], sep));
    }
  }

  lemma {:induction false} SplitPrefix(p: string, rest: string, sep: char)
    requires sep !in p
    ensures Split(p + rest, sep) == [p + Split(rest, sep)[0]] + Split(rest, sep)[1..]
    decreases |p|
  {
    if |p| > 0 {
      assert (p + rest)[1..] == p[1..] + rest;
      SplitPrefix(p[1..], rest, sep);
      assert [p[0]] + (p[1..] + Split(rest, sep)[0]) == p + Split(rest, sep)[0];
    } else {
      var parts := Split(rest, sep);
      assert p + rest == rest;
      assert p + parts[0] == parts[0];
      assert [parts[0]] + parts[1..] == parts;
    }
  }

  /** Splitting a join of separator-free parts gives the parts back. */
  lemma {:induction false} SplitJoin(parts: seq<string>, sep: char)
    requires |parts| >= 1
    requires forall i | 0 <= i < |parts| :: sep !in parts[i]
    ensures Split(Join(parts, [sep]), sep) == parts
  {
    if |parts| == 1 {
      SplitPrefix(parts[0], "", sep);
      assert parts[0] + "" == parts[0];
    } else {
      var tail := Join(parts[1..], [sep]);
      SplitJoin(parts[1..], sep);
      assert Join(parts, [sep]) == parts[0] + ([sep] + tail);
      SplitPrefix(parts[0], [sep] + tail, sep);
      assert ([sep] + tail)[1..] == tail;
      assert Split([sep] + tail, sep) == [""] + parts[1..];
      assert parts[0] + "" == parts[0];
      assert [parts[0]] + parts[1..] == parts;
    }
  }

  /** Length of the non-space run that starts `s`. */
  function CountWord(s: string): (n: nat)
    ensures n <= |s|
    ensures NoSpace(s[..n])
    ensures n < |s| ==> IsSpace(s[n])
  {
    if |s| == 0 || IsSpace(s[0]) then 0 else 1 + CountWord(s[1..])
  }

  /** The characters of `s` that are not white space, in order. */
  function NonSpaceChars(s: string): string {
    if |s| == 0 then [] else (if IsSpace(s[0]) then [] else [s[0]]) + NonSpaceChars(s[1..])
  }

  lemma {:induction false} NonSpaceCharsAppend(a: string, b: string)
    ensures NonSpaceChars(a + b) == NonSpaceChars(a) + NonSpaceChars(b)
  {
    if |a| > 0 {
      assert (a + b)[1..] == a[1..] + b;
      NonSpaceCharsAppend(a[1..], b);
    } else {
      assert a + b == b;
    }
  }

  lemma {:induction false} NonSpaceCharsOfSpaces(s: string)
    requires AllSpace(s)
    ensures NonSpaceChars(s) == []
  {
    if |s| > 0 {
      NonSpaceCharsOfSpaces(s[1..]);
    }
  }

  lemma {:induction false} NonSpaceCharsOfWord(s: string)
    requires NoSpace(s)
    ensures NonSpaceChars(s) == s
  {
    if |s| > 0 {
      NonSpaceCharsOfWord(s[1..]);
      assert s == [s[0]] + s[1..];
    }
  }

  /** Splitting `s` at the end of its leading white space and of the word after it. */
  lemma NonSpaceCharsStep(s: string, k: nat, w: nat)
    requires k <= |s| && AllSpace(s[..k])
    requires w <= |s| - k && NoSpace(s[k..][..w])
    ensures NonSpaceChars(s) == s[k..][..w] + NonSpaceChars(s[k..][w..])
  {
    var t := s[k..];
    assert s == s[..k] + (t[..w] + t[w..]);
    NonSpaceCharsAppend(s[..k], t[..w] + t[w..]);
    NonSpaceCharsAppend(t[..w], t[w..]);
    NonSpaceCharsOfSpaces(s[..k]);
    NonSpaceCharsOfWord(t[..w]);
  }

  /** Python's `s.split()` with no argument: the maximal runs of non-space
      characters. Together the words hold every non-space character of `s`, in order. */
  function SplitWhitespace(s: string): (words: seq<string>)
    ensures forall i | 0 <= i < |words| :: |words[i]| > 0 && NoSpace(words[i])
    ensures Join(words, "") == NonSpaceChars(s)
    decreases |s|
  {
    var k := CountLeading(s);
    var t := s[k..];
    if |t| == 0 then
      NonSpaceCharsOfBlank(s, k);
      []
    else
      var w := CountWord(t);
      var rest := SplitWhitespace(t[w..]);
      SplitWhitespaceStepChars(s, k, w, rest);
      [t[..w]] + rest
  }

  lemma NonSpaceCharsOfBlank(s: string, k: nat)
    requires k <= |s| && AllSpace(s[..k]) && |s[k..]| == 0
    ensures Join([], "") == NonSpaceChars(s)
  {
    assert s == s[..k];
    NonSpaceCharsOfSpaces(s);
  }

  lemma SplitWhitespaceStepChars(s: string, k: nat, w: nat, rest: seq<string>)
    requires k <= |s| && AllSpace(s[..k])
    requires w <= |s| - k && NoSpace(s[k..][..w])
    requires Join(rest, "") == NonSpaceChars(s[k..][w..])
    ensures Join([s[k..][..w]] + rest, "") == NonSpaceChars(s)
  {
    var x := s[k..][..w];
    NonSpaceCharsStep(s, k, w);
    if |rest| == 0 {
      assert x + "" == x;
    } else {
      assert ([x] + rest)[1..] == rest;
    }
  }

  predicate IsWord(w: string) {
    |w| > 0 && NoSpace(w)
  }

  lemma {:induction false} CountWordIs(s: string, n: nat)
    requires n <= |s| && NoSpace(s[..n])
    requires n < |s| ==> IsSpace(s[n])
    ensures CountWord(s) == n
    decreases n
  {
    if n > 0 {
      assert s[1..][..n - 1] == s[..n][1..];
      CountWordIs(s[1..], n - 1);
    }
  }

  /** A lone word splits into itself. */
  lemma SplitWhitespaceWord(w: string)
    requires IsWord(w)
    ensures SplitWhitespace(w) == [w]
  {
    assert w[..0] == [];
    CountLeadingIs(w, 0);
    assert w[0..] == w;
    assert w[..|w|] == w;
    CountWordIs(w, |w|);
    assert w[|w|..] == [];
    assert w[|w|..][..0] == [];
    CountLeadingIs(w[|w|..], 0);
  }

  /** Leading white space does not change what `split()` returns. */
  lemma SplitWhitespaceSkip(s: string)
    ensures SplitWhitespace(s) == SplitWhitespace(s[CountLeading(s)..])
  {
    var t := s[CountLeading(s)..];
    assert t[..0] == [];
    CountLeadingIs(t, 0);
    assert t[0..] == t;
  }

  /** A word followed by white space comes off first. */
  lemma SplitWhitespaceHead(w: string, rest: string)
    requires IsWord(w) && |rest| > 0 && IsSpace(rest[0])
    ensures SplitWhitespace(w + rest) == [w] + SplitWhitespace(rest)
  {
    var s := w + rest;
    assert s[..0] == [];
    CountLeadingIs(s, 0);
    assert s[0..] == s;
    assert s[..|w|] == w;
    CountWordIs(s, |w|);
    assert s[|w|..] == rest;
  }

  /** A word, one space, then text starting with a non-space character: the
      word comes off first. */
  lemma SplitWhitespaceCons(w: string, tail: string)
    requires IsWord(w) && |tail| > 0 && !IsSpace(tail[0])
    ensures SplitWhitespace(w + " " + tail) == [w] + SplitWhitespace(tail)
  {
    ConcatAssoc(w, " ", tail);
    SplitWhitespaceDropLeading(" ", tail);
    SplitWhitespaceHead(w, " " + tail);
  }

  lemma ConcatAssoc(a: string, b: string, c: string)
    ensures a + b + c == a + (b + c)
  {
  }

  /** Only white space: `split()` finds no word. */
  lemma SplitWhitespaceSpaces(p: string)
    requires AllSpace(p)
    ensures SplitWhitespace(p) == []
  {
    assert p[..|p|] == p;
    CountLeadingIs(p, |p|);
  }

  /** Any white space, a word, then the end or more white space: the word
      comes off first. With `SplitWhitespaceSpaces` this fixes `split()` on
      every input. */
  lemma SplitWhitespaceFirst(p: string, w: string, rest: string)
    requires AllSpace(p) && IsWord(w)
    requires |rest| == 0 || IsSpace(rest[0])
    ensures SplitWhitespace(p + w + rest) == [w] + SplitWhitespace(rest)
  {
    assert p + w + rest == p + (w + rest);
    SplitWhitespaceDropLeading(p, w + rest);
    SplitWhitespaceWordThen(w, rest);
  }

  lemma SplitWhitespaceDropLeading(p: string, u: string)
    requires AllSpace(p) && |u| > 0 && !IsSpace(u[0])
    ensures SplitWhitespace(p + u) == SplitWhitespace(u)
  {
    var s := p + u;
    assert s[..|p|] == p;
    assert s[|p|] == u[0];
    CountLeadingIs(s, |p|);
    SplitWhitespaceSkip(s);
    assert s[|p|..] == u;
  }

  lemma SplitWhitespaceWordThen(w: string, rest: string)
    requires IsWord(w)
    requires |rest| == 0 || IsSpace(rest[0])
    ensures SplitWhitespace(w + rest) == [w] + SplitWhitespace(rest)
  {
    if |rest| == 0 {
      assert w + rest == w;
      SplitWhitespaceWord(w);
      SplitWhitespaceEmpty();
    } else {
      SplitWhitespaceHead(w, rest);
    }
  }

  /** `split()` undoes a single-space join of non-empty, space-free words. */
  lemma {:induction false} SplitWhitespaceJoin(words: seq<string>)
    requires forall i | 0 <= i < |words| :: IsWord(words[i])
    ensures SplitWhitespace(Join(words, " ")) == words
  {
    if |words| == 0 {
      SplitWhitespaceEmpty();
    } else if |words| == 1 {
      SplitWhitespaceWord(words[0]);
    } else {
      var tail := Join(words[1..], " ");
      SplitWhitespaceJoin(words[1..]);
      JoinOfWordsStartsWithWord(words[1..]);
      JoinUnfold(words, " ");
      SplitWhitespaceCons(words[0], tail);
      assert [words[0]] + words[1..] == words;
    }
  }

  lemma SplitWhitespaceEmpty()
    ensures SplitWhitespace("") == []
  {
    var s: string := "";
    assert s[..0] == [];
    CountLeadingIs(s, 0);
  }

  lemma JoinOfWordsStartsWithWord(words: seq<string>)
    requires |words| > 0
    requires forall i | 0 <= i < |words| :: IsWord(words[i])
    ensures |Join(words, " ")| > 0 && !IsSpace(Join(words, " ")[0])
  {
    JoinFirstLast(words, " ");
  }

  lemma JoinUnfold(parts: seq<string>, sep: string)
    requires |parts| > 1
    ensures Join(parts, sep) == parts[0] + sep + Join(parts[1..], sep)
  {
  }

  predicate IsDigit(c: char) {
    '0' <= c <= '9'
  }

  /** The digit part of a Python 3 integer literal: ASCII digits, with single
      underscores allowed only between two digits. */
  predicate DigitString(s: string) {
    && |s| > 0
    && IsDigit(s[0])
    && IsDigit(s[|s| - 1])
    && (forall i | 0 <= i < |s| :: IsDigit(s[i]) || s[i] == '_')
    && (forall i | 0 <= i < |s| - 1 :: s[i] == '_' ==> IsDigit(s[i + 1]))
  }

  /** The decimal value of the digits of `s`, underscores skipped. */
  function DigitsValue(s: string): nat
  {
    if |s| == 0 then 0
    else
      var last := s[|s| - 1];
      if IsDigit(last) then 10 * DigitsValue(s[..|s| - 1]) + (last as int - '0' as int)
      else DigitsValue(s[..|s| - 1])
  }

  /** `t` is a Python integer literal of value `n`: an optional sign, then a digit string. */
  predicate IntLiteral(t: string, n: int) {
    || (DigitString(t) && n == DigitsValue(t))
    || (|t| > 0 && t[0] == '+' && DigitString(t[1..]) && n == DigitsValue(t[1..]))
    || (|t| > 0 && t[0] == '-' && DigitString(t[1..]) && -n == DigitsValue(t[1..]))
  }

  /** The white space `int()` skips around a literal: that of `str.isspace()`
      except the ASCII separators U+001C to U+001F, which CPython's `int()`
      leaves in place and then rejects. */
  predicate IsIntSpace(c: char) {
    IsSpace(c) && !('\U{1C}' <= c <= '\U{1F}')
  }

  predicate AllIntSpace(s: string) {
    forall i | 0 <= i < |s| :: IsIntSpace(s[i])
  }

  /** `s` is `t` with white space that `int()` skips added on both sides. */
  predicate IntPadded(s: string, t: string) {
    exists k | 0 <= k <= |s| - |t| ::
      s[k..k + |t|] == t && AllIntSpace(s[..k]) && AllIntSpace(s[k + |t|..])
  }

  /** Python 3's `int(s)` on a string; `None` where Python raises `ValueError`.
      It accepts exactly the integer literals padded with white space that
      `int()` skips, and then the literal is what `strip()` leaves. */
  function ParseInt(s: string): (r: Option<int>)
    ensures r.Some? ==> IntPadded(s, Strip(s)) && IntLiteral(Strip(s), r.value)
    ensures forall t, n | IntPadded(s, t) && IntLiteral(t, n) :: r == Some(n)
    ensures (forall i | 0 <= i < |s| :: !IsDigit(s[i])) ==> r == None
  {
    var t := Strip(s);
    ParseIntComplete(s);
    if IntPadded(s, t) then
      assert forall i | 0 <= i < |t| :: t[i] in s;
      ParseStripped(t)
    else
      None
  }

  /** An `int()`-padded literal is exactly what `strip()` leaves. */
  lemma ParseIntComplete(s: string)
    ensures forall t, n | IntPadded(s, t) && IntLiteral(t, n) :: Strip(s) == t
  {
    forall t, n | IntPadded(s, t) && IntLiteral(t, n) ensures Strip(s) == t {
      var j :| 0 <= j <= |s| - |t| && s[j..j + |t|] == t && AllIntSpace(s[..j]) && AllIntSpace(s[j + |t|..]);
      IntPaddedStrip(s, t, n, j);
    }
  }

  lemma IntPaddedStrip(s: string, t: string, n: int, j: nat)
    requires j + |t| <= |s| && s[j..j + |t|] == t && AllIntSpace(s[..j]) && AllIntSpace(s[j + |t|..])
    requires IntLiteral(t, n)
    ensures Strip(s) == t
  {
    var p := s[..j];
    var q := s[j + |t|..];
    assert Trimmed(t) && |t| > 0 by {
      if !DigitString(t) {
        assert t[|t| - 1] == t[1..][|t| - 2];
      }
    }
    assert s == p + t + q by {
      assert s[j..] == t + q;
      assert s == p + s[j..];
      ConcatAssoc(p, t, q);
    }
    StripOfPadded(p, t, q);
  }

  /** U+001C to U+001F are white space to `str.isspace()` and `strip()`, but
      `int()` does not skip them: it raises on any string that starts with one. */
  lemma IntKeepsSeparators(c: char, t: string)
    requires '\U{1C}' <= c <= '\U{1F}'
    ensures IsSpace(c)
    ensures ParseInt([c] + t) == None
  {
    SeparatorStartsNoLiteral(c, t, Strip([c] + t));
  }

  lemma SeparatorStartsNoLiteral(c: char, t: string, u: string)
    requires '\U{1C}' <= c <= '\U{1F}'
    ensures !(IntPadded([c] + t, u) && |u| > 0 && (IsDigit(u[0]) || u[0] == '+' || u[0] == '-'))
  {
    var s := [c] + t;
    if IntPadded(s, u) && |u| > 0 {
      var k :| 0 <= k <= |s| - |u| && s[k..k + |u|] == u && AllIntSpace(s[..k]) && AllIntSpace(s[k + |u|..]);
      AllIntSpaceHead(s[..k]);
      assert u[0] == s[k];
    }
  }

  lemma AllIntSpaceHead(p: string)
    requires AllIntSpace(p)
    ensures |p| == 0 || IsIntSpace(p[0])
  {
  }

  /** `int` after the white space is gone: an optional sign, then the digits. */
  function ParseStripped(t: string): (r: Option<int>)
    ensures forall n :: r == Some(n) <==> IntLiteral(t, n)
    ensures (forall i | 0 <= i < |t| :: !IsDigit(t[i])) ==> r == None
  {
    if |t| > 0 && (t[0] == '-' || t[0] == '+') then
      var body := t[1..];
      if DigitString(body) then
        assert body[0] == t[1];
        var v: int := DigitsValue(body);
        Some(if t[0] == '-' then -v else v)
      else None
    else if DigitString(t) then
      assert IsDigit(t[0]);
      Some(DigitsValue(t))
    else None
  }

  /** Python's `str(n)` for a non-negative integer. */
  function NatDecimal(n: nat): (s: string)
    ensures |s| > 0
    ensures forall i | 0 <= i < |s| :: IsDigit(s[i])
  {
    if n < 10 then [('0' as int + n) as char]
    else NatDecimal(n / 10) + [('0' as int + n % 10) as char]
  }

  /** Python's `str(n)`. */
  function FormatInt(n: int): string {
    if n < 0 then "-" + NatDecimal(-n) else NatDecimal(n)
  }

  lemma {:induction false} NatDecimalValue(n: nat)
    ensures DigitsValue(NatDecimal(n)) == n
  {
    var s := NatDecimal(n);
    if n >= 10 {
      assert s[..|s| - 1] == NatDecimal(n / 10);
      NatDecimalValue(n / 10);
    }
  }

  lemma DecimalIsDigitString(m: nat)
    ensures DigitString(NatDecimal(m))
  {
  }

  /** `str(n)` has nothing for `strip()` to remove. */
  lemma StripFormat(n: int)
    ensures Strip(FormatInt(n)) == FormatInt(n)
  {
    var s := FormatInt(n);
    var d := NatDecimal(if n < 0 then -n else n);
    assert Trimmed(s) by {
      if n < 0 { assert s[|s| - 1] == d[|d| - 1]; }
    }
    assert "" + s + "" == s;
    StripOfPadded("", s, "");
  }

  lemma ParseStrippedFormat(n: int)
    ensures ParseStripped(FormatInt(n)) == Some(n)
  {
    var s := FormatInt(n);
    var m := if n < 0 then -n else n;
    var d := NatDecimal(m);
    NatDecimalValue(m);
    DecimalIsDigitString(m);
    if n < 0 {
      assert s[1..] == d;
    } else {
      assert s == d;
    }
  }

  /** `int` reads back what `str` wrote. */
  lemma ParseFormat(n: int)
    ensures ParseInt(FormatInt(n)) == Some(n)
  {
    var t := FormatInt(n);
    ParseStrippedFormat(n);
    assert IntLiteral(t, n);
    assert IntPadded(t, t) by {
      assert t[0..0 + |t|] == t && t[..0] == [] && t[|t|..] == [];
    }
    ParseLiteral(t, t, n);
  }

  /** A literal with skippable white space around it parses to its value. */
  lemma ParseLiteral(s: string, t: string, n: int)
    requires IntPadded(s, t) && IntLiteral(t, n)
    ensures ParseInt(s) == Some(n)
  {
  }

  /** `int` accepts the white space it skips around the number. */
  lemma ParsePadded(p: string, n: int, q: string)
    requires AllIntSpace(p) && AllIntSpace(q)
    ensures ParseInt(p + FormatInt(n) + q) == Some(n)
  {
    var t := FormatInt(n);
    var s := p + t + q;
    ParseStrippedFormat(n);
    assert IntLiteral(t, n);
    assert s[|p|..|p| + |t|] == t && s[..|p|] == p && s[|p| + |t|..] == q;
    assert IntPadded(s, t);
    ParseLiteral(s, t, n);
  }

  /** ASCII upper-case letters to lower case; every other character unchanged. */
  function LowerChar(c: char): char {
    if 'A' <= c <= 'Z' then (c as int + 32) as char else c
  }

  /** `str.lower()` on the characters that matter for comparing with an ASCII word. */
  function Lower(s: string): (r: string)
    ensures |r| == |s|
    ensures forall i | 0 <= i < |s| :: r[i] == LowerChar(s[i])
  {
    if |s| == 0 then [] else [LowerChar(s[0])] + Lower(s[1..])
  }
}
